=== FILE: README.md ===
# widget.js: the widget base class, modelled in Dafny

`widget.js` defines `window.Widget`, the base class of a page's components.
`Widget.extend(obj)` builds a component type whose prototype carries the
members of `obj`. Constructing a component runs its `init(pageName)`, then
`_bind`:

- every entry of the `events` table becomes a jQuery DOM handler on
  `self.el || 'body'`, delegated to a selector when the key names one;
- every entry of the `channels` table becomes a subscription on the
  `listener` pub/sub bus;
- a last subscription to `'common.page'` / `'switchend'` runs `_destroy`
  when the page switches.

Each binding is recorded as a triple `[name, selector/event, method]`.
`_destroy` calls the component's `destroy`, replays every record as an
`off` with the same triple, in recorded order, and then drops the records,
`destroy` and `el`.

The model has these modules:

- `Values`: the JavaScript values the class inspects.
- `KeySplitter`: the key expression `^(\S+)\s*(.*)$` as a string function.
- `Prototypes`: prototype chains and `extend`.
- `Registry`: the two event sources as a log of `on`/`off` calls, the
  registrations that log leaves active, and the `EventHub` object that
  receives the calls.
- `Binding`: what binding and teardown compute, as functions, with the
  lemmas about the registries.
- `Lifecycle`: the `Widget` class, whose methods perform binding and
  teardown one record at a time, as the `$.each` loops do, and a corrected
  teardown that the page switch uses (see "Findings").
- `AsWritten`: two places where the code does something it evidently
  did not intend (see "Findings").

The main model keeps the records, `el` and `destroy` per instance. It also
resolves a channel handler given by name on the instance, as the `events`
loop does.

## Model

| member | source | states |
|---|---|---|
| KeySplitter.Split | widget.js:33-35 | A matched key is a non-empty whitespace-free token, then a whitespace run, then a single-line rest that does not start with whitespace. The token ends at whitespace or at the end of the key. |
| KeySplitter.SplitJoined | widget.js:33-35 | Splitting inverts joining. Any token, whitespace and single-line rest that does not start with whitespace (with whitespace before a non-empty rest) split back into that token and rest. |
| KeySplitter.SplitFailsExactly | widget.js:23 | The match is null exactly when the key is empty, starts with whitespace, or has a line terminator after the start of its second part. |
| KeySplitter.NoMatchHasCause | widget.js:33 | A non-empty key that starts with a non-space character and does not match has a line break after its second part begins. |
| KeySplitter.BreakInRestPreventsMatch | widget.js:33 | Such a line break makes the match null. |
| Prototypes.Extend | widget.js:122-134 | The child prototype sits directly on the parent, which it leaves as it was. A read on the child gives the member of `obj` when `obj` has a defined value for the name; otherwise it gives what the parent gives. |
| Prototypes.LookupNearest | widget.js:28 | A property read finds the member of the nearest prototype on the chain that defines the name. |
| Prototypes.LookupAbsent | widget.js:28-31 | A read finds nothing when no prototype on the chain defines the name. |
| Binding.Entries | widget.js:25 | A plain-object table is visited with exactly its own entries, in order. A missing, falsy or non-object table gives no entries. |
| Binding.Resolve | widget.js:27-30 | A function handler is used as it is. On the instance, a name resolves exactly when the chain gives a function for it. As written for channels, a name never resolves. Any other value never resolves. |
| Binding.PlanStep | widget.js:27-36 | After an earlier throw, or for a handler that does not resolve, one callback changes nothing. A resolved handler whose key matches appends exactly the record of the key's two names and that handler. A resolved handler whose key does not match throws, naming that key and appending nothing. |
| Binding.PlanTable | widget.js:26-37 | The loop appends at most one record per entry of the table. |
| Binding.PlanRecordsFromEntries | widget.js:26-37 | Every record comes from an entry of the table. That entry's handler resolved to the record's method, and its key splits into the record's two names. |
| Binding.PlanMalformedFromEntry | widget.js:33-34 | A loop that ended early names a key of the table whose handler resolved and whose key does not match. |
| Binding.PlanSkipsUnresolved | widget.js:27-32 | An entry whose handler does not resolve adds no record and cannot end the loop: the loop's outcome is as if the entry were absent. |
| Binding.PlanPrefix | widget.js:26-37 | Records follow iteration order: the records of a prefix of the table begin the records of the whole. Once a key has thrown, later entries change nothing. |
| Binding.PlanStopsAt | widget.js:33-34 | A key that throws at entry i decides the outcome of the whole loop. |
| Binding.PlanTableNext | widget.js:26-37 | The loop over one more entry is one more callback step. |
| Binding.NamedHandlerBound | widget.js:27-36 | A handler named by a method of the instance is bound with the names its key splits into, unless an earlier key ended the loop. |
| Binding.EntryBound | widget.js:26-37 | Any entry whose handler resolves and whose key matches is bound with the names its key splits into, unless an earlier key ended the loop. Later entries do not take its record away. |
| Binding.TargetOf | widget.js:62 | A non-empty string `el` is a selector. An object or function `el` is the element itself. Undefined, null and the empty string give `'body'`. |
| Binding.DomRegFor | widget.js:63-67 | The registration is on the target, with the record's event and method. It is delegated to the selector exactly when the selector is non-empty. |
| Binding.EventsPlan | widget.js:25-38 | The `events` loop with names read on the instance. Without an `events` plain object nothing is bound, and there is at most one record per entry. |
| Binding.ChannelsPlan | widget.js:39-52 | The `channels` loop with names read on the instance, as line 28 does. Without a `channels` plain object nothing is subscribed, and there is at most one record per entry. |
| Binding.Finish | widget.js:53 | An uninterrupted binding ends with exactly one call, the teardown subscription to `'common.page'`/`'switchend'`. A binding that threw makes no such call. |
| Binding.BindEffect | widget.js:20-54 | The DOM records are the `events` plan. The channel records are the `channels` plan, unless an `events` key threw. The calls are one registration per record, in order, then the teardown subscription, with each stage stopping where a key threw. |
| Binding.BindEffectStages | widget.js:33-53 | The calls stop after the DOM registrations when an `events` key throws, and after the bus registrations when a `channels` key throws. Otherwise they end with the teardown subscription. |
| Binding.BindCallsLayout | widget.js:36-50 | The k-th DOM call registers the k-th DOM record with its own triple, and likewise for the channel calls. |
| Binding.TeardownSubscribedOnce | widget.js:53 | Only an uninterrupted binding subscribes to `'common.page'`/`'switchend'`, exactly once and as its last call. |
| Binding.TeardownCalls | widget.js:100-107 | Teardown makes one call per record plus one, and calls `destroy` first. |
| Binding.ReleaseCalls | widget.js:100-107 | With a `destroy` function the calls are those of teardown as written. Without one they are the unbind calls alone, with nothing called first. |
| Binding.CallsAt | widget.js:102-107 | The k-th registration, bind call and unbind call belong to the k-th record. |
| Binding.MirrorAt | widget.js:100-107 | The (k+1)-th teardown call reverses the k-th bind call. |
| Binding.TeardownMirrorsBind | widget.js:100-107 | Teardown has as many calls as the binding. After `destroy`, its k-th call reverses the binding's k-th registration with the identical triple. Only the teardown subscription is never reversed. |
| Binding.DomUnbindClears | widget.js:102-104 | `off` for every DOM record zeroes every registration one of those calls matches, delegated ones included. Every other registration keeps its count. |
| Binding.BusUnbindClears | widget.js:105-107 | `listener.off` for every channel record takes exactly those subscriptions off the bus. |
| Binding.DomBindAdds | widget.js:61-69 | The DOM calls of a binding add exactly the records' registrations. |
| Binding.BusBindAdds | widget.js:76-79 | The channel calls add exactly the records' subscriptions. |
| Binding.DomCallsKeepBus | widget.js:61-69 | DOM calls leave the bus as it was. |
| Binding.BusCallsKeepDom | widget.js:76-79 | Bus calls leave the DOM registrations as they were. |
| Binding.UnbindClears | widget.js:102-107 | The two `off` loops zero every DOM registration one of their calls matches and keep every other. They take every recorded subscription off the bus. |
| Binding.TeardownClears | widget.js:100-107 | After teardown, every DOM registration one of its `off` calls matches is gone and every other keeps its count. The bus has lost every recorded subscription and nothing else. |
| Binding.ReleaseClears | widget.js:100-107 | Release, with or without a `destroy`, leaves the registries exactly as teardown does. |
| Binding.TeardownClearsAt | widget.js:100-107 | After teardown, no registration that one of its `off` calls matches is active, which includes every recorded one. Every other registration keeps its count. |
| Binding.TeardownTakesDelegated | widget.js:88 | A record with an empty selector is unbound with `off(event, fn)`. That call also removes the same handler delegated to any selector on the same element, such as one made by another widget of the same type. jQuery's special case for `focus` and `blur` is not modelled (see "Left out"). |
| Binding.BindAdds | widget.js:20-54 | An uninterrupted binding adds its records' registrations and one teardown subscription. |
| Binding.BindThenTeardownDom | widget.js:20-112 | Binding then teardown restores the DOM registrations binding started from, with one exception. Whatever teardown's `off` calls match is gone, every recorded registration included, even where it was active before. |
| Binding.BindThenTeardownBus | widget.js:20-112 | The same for the bus, except that the teardown subscription, which nothing removes, stays. |
| Registry.WithoutAt | widget.js:105-107 | Removing a list of bus subscriptions, as the `listener.off` loop does, zeroes each listed one and keeps every other count. |
| Registry.Unregisters | widget.js:83-90 | An `off` with a registration's own fields takes it away. An `off` that names a selector takes away only the identical registration. Any `off` takes away only registrations on its element with its event and handler. |
| Registry.DomCount | widget.js:61-90 | A DOM registration is active only if some `on` with its fields was made, and no more times than there were calls. |
| Registry.DomCountAfter | widget.js:61-90 | An `on` with a registration's fields adds one to its count. An `off` that matches it zeroes the count. Any other call leaves it as it was. |
| Registry.DomCountSkips | widget.js:76-96 | Calls that do not address the DOM leave every DOM registration as it was. |
| Registry.UnregisteredOwn | widget.js:83-90 | `off` with a registration's own fields takes that registration away. |
| Registry.UnregisteredNext | widget.js:102-104 | A list of `off` calls with one more call added removes a registration exactly when the new call or an earlier one does. |
| Registry.ActiveBus | widget.js:76-96 | The bus never holds more subscriptions than there were calls. |
| Registry.ActiveBusSubscribed | widget.js:76-96 | Every active subscription was made by a `listener.on` of the log. |
| Registry.ActiveAfter | widget.js:76-96 | A `listener.on` adds its subscription, a `listener.off` removes every identical one, and any other call leaves the bus as it was. |
| Registry.ActiveBusSkips | widget.js:61-90 | Calls that do not address the bus leave it as it was. |
| Registry.EventHub.On | widget.js:64-66 | `on` appends its call and adds one to that registration's count. Every other count is unchanged. |
| Registry.EventHub.Off | widget.js:86-88 | `off` appends its call and zeroes every registration it matches: same element, event and handler, and the same selector unless the `off` names none. Every other count is unchanged. |
| Registry.EventHub.Subscribe | widget.js:77 | `listener.on` appends its call and adds one subscription. The DOM registrations are unchanged. |
| Registry.EventHub.Unsubscribe | widget.js:95 | `listener.off` appends its call and removes every identical subscription. The DOM registrations are unchanged. |
| Registry.EventHub.RunHook | widget.js:101 | A call into the component's own `destroy` or `init` is logged and changes no registration. |
| Lifecycle.InitialEl | widget.js:62 | A new instance's `el` is what its chain gives for `el`, and undefined when the chain has none. |
| Lifecycle.HookOf | widget.js:15 | A hook is present exactly when the chain gives a function for its name, and it is that function. |
| Lifecycle.InitCalls | widget.js:14-17 | `init(pageName)` is called once when the chain gives a function for `init`, and otherwise there is no call. |
| Lifecycle.Widget.constructor | widget.js:124-126 | A new instance of the type has `el` and `destroy` from its chain, no records, and is live and not yet subscribed to the page switch. |
| Lifecycle.Widget.BindBrowserEvent | widget.js:61-69 | Exactly one DOM registration on the target, then exactly one record with the same triple appended. |
| Lifecycle.Widget.BindChannelEvent | widget.js:76-79 | Exactly one bus subscription, then exactly one record with the same triple appended. |
| Lifecycle.Widget.UnbindBrowserEvent | widget.js:83-90 | Exactly one `off` with the triple, on the target as it is at the time of the call. |
| Lifecycle.Widget.UnbindChannelEvent | widget.js:94-96 | Exactly one `listener.off` with the triple. |
| Lifecycle.Widget.BindEventEntry | widget.js:27-36 | One `events` callback is one step of the plan. The calls made so far are the registrations of the records. |
| Lifecycle.Widget.BindEvents | widget.js:26-37 | The DOM records and the key that threw are the `events` plan. The calls are one registration per record, in record order. |
| Lifecycle.Widget.BindChannelEntry | widget.js:41-50 | One `channels` callback is one step of the plan, with names read on the instance. |
| Lifecycle.Widget.BindChannels | widget.js:40-51 | The channel records and the key that threw are the `channels` plan. The calls are one subscription per record. |
| Lifecycle.Widget.Bind | widget.js:20-54 | Records, calls and failure are exactly `BindEffect`. The widget is subscribed to the page switch exactly when no key threw (or it already was). |
| Lifecycle.Widget.Init | widget.js:14-19 | `init(pageName)` is called first when it is a function, then `_bind`. The widget is subscribed exactly when no key threw. |
| Lifecycle.Widget.UnbindEvents | widget.js:102-104 | One `off` per DOM record, in recorded order. |
| Lifecycle.Widget.UnbindChannels | widget.js:105-107 | One `listener.off` per channel record, in recorded order. |
| Lifecycle.Widget.Detach | widget.js:101-107 | `destroy` is called, then the unbind calls, as `TeardownCalls`. |
| Lifecycle.Widget.Teardown | widget.js:100-112 | It throws, with no effect, exactly when `destroy` is not a function. Otherwise it makes `TeardownCalls` and leaves the instance torn down, with no records, `destroy` null and `el` undefined. |
| Lifecycle.Widget.Release | widget.js:100-112 | Corrected teardown: `destroy` is called only when it is a function, and the records are unbound in either case. The instance ends torn down, with no records, `destroy` null and `el` undefined. |
| Lifecycle.MissingDestroyLeaks | widget.js:101 | For a type without `destroy`, every recorded handler is registered after binding. The corrected release removes it. That teardown as written throws first and makes no call, which leaves the handler registered, is stated by `Lifecycle.Widget.Teardown`. |
| Lifecycle.Construct | widget.js:124-127 | A new instance with its chain's `el` and `destroy`. The calls are `init`'s call followed by `BindEffect`'s, and the instance is subscribed to the page switch exactly when no key threw. |
| Lifecycle.SwitchEnd | widget.js:100-112 | The page switch reaches two widgets whose binding subscribed them. Each releases its own records on its own element and calls its own `destroy` if it has one. Afterwards none of either widget's recorded registrations or subscriptions is active. |
| AsWritten.SharedBind | widget.js:61-69 | As written, construction sets the shared `self`. A binding registers every record on the new widget's element, in order, and pushes onto the shared array. When that array is null it throws after the first `on`, which is its only call. |
| AsWritten.SharedDestroy | widget.js:100-112 | As written, `_destroy` calls the shared `self.destroy` and throws, with no call, when it is null. Then it unbinds every shared record against `self`'s element, DOM records first. When a record array is null it throws at that loop, having cleared nothing. Otherwise it nulls both arrays and clears `self`. |
| AsWritten.SharedStateLeaks | widget.js:100-112 | Two widgets on different elements, then the page switch: only the second widget's `destroy` runs, and the first widget's handler stays registered. The second `_destroy` throws, and so does any later binding that records a handler. |
| AsWritten.BindTwo | widget.js:61-69 | As written, binding two widgets one after the other registers each on its own element and leaves both records in the one shared array. |
| AsWritten.DestroyTwoRecords | widget.js:102-104 | `_destroy` unbinds both shared records against the element of the shared `self`. |
| AsWritten.LaterSwitchThrowsAgain | widget.js:100-112 | After the arrays are null, a widget without DOM records still binds. Every later page switch calls its `destroy`, throws and changes nothing. |
| AsWritten.OtherTargetLeaves | widget.js:86-88 | An `off` on another element, whatever its selector, leaves the registration in place. |
| AsWritten.ChannelsPlanAsWritten | widget.js:40-51 | As written, the `channels` loop appends at most one record per entry of the table. |
| AsWritten.ThrowingEntryIsFunction | widget.js:40-51 | As written, the `channels` loop ends early only at an entry whose handler is a function and whose key does not match. |
| AsWritten.ChannelNamesNeverBound | widget.js:41-46 | As written, every channel record's method is a function value of the `channels` table. A handler given by name is never bound (see the `Binding.Resolve` line of "Left out" for `String.prototype` names). |
| AsWritten.ChannelNameSkipped | widget.js:41-42 | A single named channel handler: nothing is subscribed as written, but the handler is subscribed when the name is read on the instance. |

## Left out

- jQuery's event dispatch, selector matching and `$.proxy`'s `this` binding are not modelled. A handler is an identity (`FnId`) that is the same at `on` and at `off`, as jQuery's guid for a proxy makes it. `off` removes every registration with the same element, event and handler. Given a selector it removes only the handlers delegated to that selector; given none (`off(event, fn)`, line 88) it removes the handler whatever its selector, delegated ones included. Elements and selectors are compared as values: two selector strings that pick the same element, or an object `el` and a selector for it, count as different targets.
- Registry.Unregisters: two jQuery behaviours are not modelled, and `Binding.TeardownTakesDelegated` inherits the first. jQuery files delegated `focus` and `blur` handlers under `focusin` and `focusout`, so `off('focus', fn)` does not remove a delegated `focus` handler, while the model removes it. jQuery's `off('click', fn)` also removes a handler registered as `'click.ns'`, while the model compares event names as strings and keeps it.
- The `listener` bus is not modelled either. Its subscriptions are matched like jQuery's: `listener.off(channel, event, method)` is taken to remove the `$.proxy(method, self)` wrapper that line 77 subscribed, which holds only if `listener` compares handlers by jQuery's proxy guid. Its dispatch and the broadcast of `'common.page'`/`'switchend'` are not modelled. The broadcast is `Lifecycle.SwitchEnd`, which runs the corrected teardown `Lifecycle.Widget.Release` for two subscribed widgets; as written, each run is `Lifecycle.Widget.Teardown`.
- What a component's own `init` and `destroy` do is not modelled; each appears only as a call in the log. A throwing `init` is not modelled.
- Binding.Resolve: a handler name whose read on the instance yields a truthy value that is not a function (a string, an object) resolves to nothing and the entry is skipped. The source does not skip it. It splits the key and pushes a record with that value, and `$.proxy` of a non-function returns undefined without throwing. `on(event, undefined)` then registers nothing, while `on(event, selector, undefined)` treats the selector as the handler argument. The `off` of such a record at teardown is likewise not modelled. Functions inherited from `Object.prototype` (`toString`, `hasOwnProperty` and the like), which `self[method]` finds for those names, are not modelled either, because the base prototype is taken to have no members. In the channel loop as written, `this[method]` reads the handler string, whose `String.prototype` functions (`"toString"["toString"]` is one) are taken to be absent. So "as written for channels, a name never resolves" in this contract, and "never bound" in `AsWritten.ChannelNamesNeverBound`, hold only for names that are not `String.prototype` methods.
- Property values are folded into strings, functions, plain objects, undefined and null. Falsy numbers and `false` fold into null, which they behave like everywhere the class tests a value. Truthy numbers, `true` and arrays are not modelled.
- `Prototypes.Extend`: the `Surrogate` function and the `constructor` member it adds are not modelled. Prototypes are values, so "the parent is unchanged" holds by construction rather than as a separate statement.
- `createWidget` drops the new instance; `Lifecycle.Construct` returns it for the statements about it.
- Re-entrant construction (an `init` that constructs another widget) and garbage collection are not modelled.
- Lifecycle.Widget.Teardown: it follows the code as written. `_init` calls `init` only when it is a function (line 15), but `_destroy` calls `self.destroy()` without that guard (line 101), so with no `destroy` function teardown throws and changes nothing, and so does a second teardown (see "Findings"). `Lifecycle.Widget.Release` is the corrected teardown that `Lifecycle.SwitchEnd` uses. The effect of either on the registries is stated by `Binding.TeardownClears` and `Binding.ReleaseClears`, not in their own contracts.
- AsWritten.SharedDestroy: `$.each` over a null array throws, as in jQuery 1.x and 2.x, which read the array's `length`. Under jQuery 3, which iterates nothing over null, the run would instead go on to unbind the other array and clear `self`.
- Binding.TargetOf: an `el` that is a function is taken as an element target, whereas `$(fn)` registers a ready handler and yields the document. Object targets are told apart by their members, not by object identity.
- `AsWritten.SharedBind` covers DOM records only. The shared channel array behaves the same way.

## Findings

| source | as written | input that shows it | evidently intended | confidence | as-written member | corrected member |
|---|---|---|---|---|---|---|
| widget.js:12-13,108-111,125 | `self` and both record arrays are variables of the module, shared by every widget. `_destroy` nulls them. | Two widgets on `#a` and `#b`, each with one `events` entry, then `'switchend'`. Only `#b`'s `destroy` runs, `#a`'s handler is taken off `#b` and stays on `#a`, the second `_destroy` throws, and any later binding that records a handler throws. | Each widget keeps its own records, `el` and `destroy`, and its teardown releases only its own. | not executed | AsWritten.SharedStateLeaks | Lifecycle.SwitchEnd |
| widget.js:101 | `self.destroy()` is called unconditionally, before anything is unbound. | A component type with no `destroy` member, bound with one `events` entry, then `'switchend'`: the first line throws, nothing is unbound, and the handler stays registered on every later page. | Guard `destroy` as `_init` guards `init` with `$.isFunction` (line 15), and unbind the records in either case, as the comment at lines 97-99 says teardown does. | not executed | Lifecycle.MissingDestroyLeaks | Lifecycle.Widget.Release |
| widget.js:42 | A channel handler given by name is read as `this[method]`, where `this` is the `$.each` iteration value: the handler string itself. | `channels: {'common.page switchstart': 'onSwitch'}` with `onSwitch` a method of the widget: nothing is subscribed. | The name is read on the widget, `self[method]`, as the `events` loop does at line 28. | not executed | AsWritten.ChannelNameSkipped | Binding.NamedHandlerBound |

=== FILE: as_written.dfy ===
/** widget.js as written, where it departs from what the rest of the model
    does. Two departures are modelled here: the record arrays and `self` are
    variables of the module, shared by every widget (lines 12-13, 125,
    108-111), and a channel handler given by name is read on the `$.each`
    iteration value instead of the widget (line 42). */
module AsWritten {
  import opened Values
  import opened KeySplitter
  import opened Prototypes
  import opened Registry
  import opened Binding

  /** What `_destroy` reads through the shared `self`: the `el` and the
      `destroy` of the widget constructed last. */
  datatype Instance = Instance(el: Value, destroy: Option<FnId>)

  /** The shared variables; `None` is an array that has been set to null. */
  datatype Shared = Shared(self: Instance, browser: Option<seq<Record>>, channel: Option<seq<Record>>)

  /** The shared variables after a step, the calls it made, and whether it threw. */
  datatype Step = Step(state: Shared, calls: seq<Call>, threw: bool)

  /** When the script has run: no widget yet, two empty arrays. */
  const Loaded := Shared(Instance(Undefined, None), Some([]), Some([]))

  /** Constructing a widget whose `events` give the records `rs` and whose
      `channels` give none: `self` becomes the new widget, and each
      `_bindBrowserEvent` registers on that widget's element and pushes onto
      the shared array. Pushing onto a null array throws, right after the
      first `on`. The teardown subscription is left out of this step. */
  function SharedBind(m: Shared, inst: Instance, rs: seq<Record>): (s: Step)
    ensures s.state.self == inst
    ensures !s.threw && m.browser.Some? ==> s.state.browser == Some(m.browser.value + rs)
    ensures s.threw <==> rs != [] && m.browser.None?
    ensures !s.threw ==> s.calls == DomBindCalls(TargetOf(inst.el), rs)
    ensures s.threw ==> s.calls == [DomOn(DomRegFor(TargetOf(inst.el), rs[0]))]
  {
    var target := TargetOf(inst.el);
    if rs == [] then
      assert m.browser.Some? ==> m.browser.value + rs == m.browser.value;
      Step(m.(self := inst), [], false)
    else if m.browser.None? then Step(m.(self := inst), [DomOn(DomRegFor(target, rs[0]))], true)
    else Step(m.(self := inst, browser := Some(m.browser.value + rs)), DomBindCalls(target, rs), false)
  }

  /** `_destroy` as written, whichever widget's subscription triggered it:
      it calls the `destroy` of the shared `self`, unregisters every record
      of every widget against that widget's element, and nulls both arrays
      and `self.destroy`. When `self.destroy` is not a function the first
      line throws. `$.each` over a null array throws too (jQuery 1.x and 2.x
      read its `length`), after `destroy` has run and before anything is
      cleared. */
  function SharedDestroy(m: Shared): (s: Step)
    ensures s.threw <==> m.self.destroy.None? || m.browser.None? || m.channel.None?
    ensures s.threw ==> s.state == m
    ensures !s.threw ==> s.state == Shared(Instance(Undefined, None), None, None)
    ensures m.self.destroy.Some? ==> |s.calls| > 0 && s.calls[0] == Invoked(m.self.destroy.value, None)
    ensures m.self.destroy.None? ==> s.calls == []
    ensures m.self.destroy.Some? && m.browser.None? ==> s.calls == [Invoked(m.self.destroy.value, None)]
    ensures m.self.destroy.Some? && m.browser.Some? && m.channel.None? ==>
              s.calls == [Invoked(m.self.destroy.value, None)] + DomUnbindCalls(TargetOf(m.self.el), m.browser.value)
    ensures !s.threw ==>
              s.calls == TeardownCalls(m.self.destroy.value, TargetOf(m.self.el), m.browser.value, m.channel.value)
  {
    if m.self.destroy.None? then Step(m, [], true)
    else
      var hook := [Invoked(m.self.destroy.value, None)];
      var target := TargetOf(m.self.el);
      if m.browser.None? then Step(m, hook, true)
      else if m.channel.None? then Step(m, hook + DomUnbindCalls(target, m.browser.value), true)
      else
        Step(Shared(Instance(Undefined, None), None, None),
             TeardownCalls(m.self.destroy.value, target, m.browser.value, m.channel.value), false)
  }

  /** Two widgets `a` and `b` on different elements, each with one DOM
      record, bound one after the other; then the page switch, which runs
      `_destroy` once per teardown subscription. The first run calls only
      `b`'s `destroy` and unregisters `a`'s record against `b`'s element, so
      `a`'s handler stays registered on `a`'s element; the second run throws,
      because `self.destroy` is now null; and a widget `c` constructed
      afterwards throws on its first binding, because the array is null.
      When both are of one type, `a`'s and `b`'s `destroy` are the same
      function, so the log cannot tell which receiver ran; the handler left
      registered shows the leak either way. */
  lemma SharedStateLeaks(a: Instance, b: Instance, c: Instance, ra: Record, rb: Record, rc: Record)
    requires a.destroy.Some? && b.destroy.Some?
    requires TargetOf(a.el) != TargetOf(b.el)
    ensures var s1 := SharedBind(Loaded, a, [ra]);
            var s2 := SharedBind(s1.state, b, [rb]);
            var d1 := SharedDestroy(s2.state);
            var d2 := SharedDestroy(d1.state);
            var s3 := SharedBind(d2.state, c, [rc]);
            var log := s1.calls + s2.calls + d1.calls + d2.calls;
            && !s1.threw && !s2.threw && !d1.threw && d2.threw && s3.threw
            && (a.destroy != b.destroy ==> Invoked(a.destroy.value, None) !in log)
            && DomCount(log, DomRegFor(TargetOf(a.el), ra)) == 1
  {
    var s1 := SharedBind(Loaded, a, [ra]);
    var s2 := SharedBind(s1.state, b, [rb]);
    BindTwo(a, b, ra, rb);
    var d1 := SharedDestroy(s2.state);
    var d2 := SharedDestroy(d1.state);
    var regA, regB := DomRegFor(TargetOf(a.el), ra), DomRegFor(TargetOf(b.el), rb);
    var offA := DomRegFor(TargetOf(b.el), ra);
    DestroyTwoRecords(b, ra, rb);
    var log := s1.calls + s2.calls + d1.calls + d2.calls;
    assert log == [DomOn(regA), DomOn(regB), Invoked(b.destroy.value, None), DomOff(offA), DomOff(regB)];
    OtherTargetLeaves(regA, regB, offA, b.destroy.value);
  }

  /** Binding `a` and then `b` from the loaded state, one DOM record each:
      two registrations, each on its own widget's element, and both records
      in the shared array. */
  lemma BindTwo(a: Instance, b: Instance, ra: Record, rb: Record)
    ensures var s1 := SharedBind(Loaded, a, [ra]);
            var s2 := SharedBind(s1.state, b, [rb]);
            && !s1.threw && !s2.threw
            && s1.calls == [DomOn(DomRegFor(TargetOf(a.el), ra))]
            && s2.calls == [DomOn(DomRegFor(TargetOf(b.el), rb))]
            && s2.state == Shared(b, Some([ra, rb]), Some([]))
  {
    assert [] + [ra] + [rb] == [ra, rb];
  }

  /** `_destroy` with `self` set to `b` and two DOM records in the shared
      array unregisters both against `b`'s element. */
  lemma DestroyTwoRecords(b: Instance, ra: Record, rb: Record)
    requires b.destroy.Some?
    ensures SharedDestroy(Shared(b, Some([ra, rb]), Some([]))).calls ==
              [Invoked(b.destroy.value, None), DomOff(DomRegFor(TargetOf(b.el), ra)), DomOff(DomRegFor(TargetOf(b.el), rb))]
  {
    CallsAt(TargetOf(b.el), [ra, rb], 0);
    CallsAt(TargetOf(b.el), [ra, rb], 1);
  }

  /** After a page switch has nulled the arrays, a widget `c` without DOM
      records is constructed, so `self` is `c`. The next switch calls `c`'s
      `destroy` and throws at the null array before anything is cleared, and
      so does every switch after it. */
  lemma LaterSwitchThrowsAgain(m: Shared, c: Instance)
    requires m.browser.None? && m.channel.None? && c.destroy.Some?
    ensures var s := SharedBind(m, c, []);
            var d := SharedDestroy(s.state);
            && !s.threw && d.threw && d.calls == [Invoked(c.destroy.value, None)]
            && d.state == s.state && SharedDestroy(d.state) == d
  {
  }

  /** Registering `x` and `y` and then unregistering `z` and `y` leaves `x`
      registered when `y` and `z` are on other targets. */
  lemma OtherTargetLeaves(x: DomReg, y: DomReg, z: DomReg, h: FnId)
    requires x.target != y.target && x.target != z.target
    ensures DomCount([DomOn(x), DomOn(y), Invoked(h, None), DomOff(z), DomOff(y)], x) == 1
  {
    var l1 := [] + [DomOn(x)];
    var l2 := l1 + [DomOn(y)];
    var l3 := l2 + [Invoked(h, None)];
    var l4 := l3 + [DomOff(z)];
    var l5 := l4 + [DomOff(y)];
    DomCountAfter([], DomOn(x), x);
    DomCountAfter(l1, DomOn(y), x);
    DomCountAfter(l2, Invoked(h, None), x);
    DomCountAfter(l3, DomOff(z), x);
    DomCountAfter(l4, DomOff(y), x);
    assert l5 == [DomOn(x), DomOn(y), Invoked(h, None), DomOff(z), DomOff(y)];
  }

  /** The `channels` loop as written: a handler given by name is read on the
      iteration value, a string, which has no such method. Only an entry
      whose handler is a function can end the loop. */
  function ChannelsPlanAsWritten(proto: Proto): (p: Plan)
    ensures |p.records| <= |Entries(Lookup(proto, "channels"))|
  {
    PlanTable(proto, Entries(Lookup(proto, "channels")), OnIterationValue)
  }

  /** Read on the iteration value, only an entry whose handler is a function
      reaches the key split, so only such an entry can end the loop. */
  lemma ThrowingEntryIsFunction(proto: Proto, es: seq<Entry>)
    requires es == Entries(Lookup(proto, "channels"))
    ensures ChannelsPlanAsWritten(proto).malformed.Some? ==>
              exists k :: 0 <= k < |es| && es[k].0 == ChannelsPlanAsWritten(proto).malformed.value
                       && es[k].1.Function? && Split(es[k].0).None?
  {
    var p := PlanTable(proto, es, OnIterationValue);
    PlanMalformedFromEntry(proto, es, OnIterationValue);
    if p.malformed.Some? {
      var k :| 0 <= k < |es| && es[k].0 == p.malformed.value
               && Resolve(proto, es[k].1, OnIterationValue).Some? && Split(es[k].0).None?;
      assert es[k].1.Function?;
    }
  }

  /** As written, only channel handlers given as functions are ever bound:
      every record's handler is a function value of the table. */
  lemma ChannelNamesNeverBound(proto: Proto, es: seq<Entry>)
    requires es == Entries(Lookup(proto, "channels"))
    ensures forall r :: r in ChannelsPlanAsWritten(proto).records ==>
              exists k :: 0 <= k < |es| && es[k].1 == Function(r.handler)
  {
    PlanRecordsFromEntries(proto, es, OnIterationValue);
    forall r | r in PlanTable(proto, es, OnIterationValue).records
      ensures exists k :: 0 <= k < |es| && es[k].1 == Function(r.handler)
    {
      var k :| 0 <= k < |es| && Resolve(proto, es[k].1, OnIterationValue) == Some(r.handler)
                             && Split(es[k].0) == Some((r.first, r.second));
      assert es[k].1 == Function(r.handler);
    }
  }

  /** A widget whose only channel binding names its own method `name`, such
      as `{'common.page switchstart': 'onSwitch'}`: as written nothing is
      subscribed; read on the widget, as the `events` loop does, the method
      is subscribed under the names the key splits into. */
  lemma ChannelNameSkipped(key: string, name: string, f: FnId)
    requires Split(key).Some? && name != "channels"
    ensures var proto := Extend(Base, map["channels" := Table([(key, Text(name))]), name := Function(f)]);
            && ChannelsPlanAsWritten(proto) == Plan([], None)
            && ChannelsPlan(proto) == Plan([Record(Split(key).value.0, Split(key).value.1, f)], None)
  {
    var proto := Extend(Base, map["channels" := Table([(key, Text(name))]), name := Function(f)]);
    var es := [(key, Text(name))];
    assert Lookup(proto, "channels") == Some(Table(es));
    assert Lookup(proto, name) == Some(Function(f));
    assert es[..0] == [];
    assert Resolve(proto, Text(name), OnIterationValue).None?;
    assert Resolve(proto, Text(name), OnInstance) == Some(f);
    assert PlanTable(proto, es, OnIterationValue) == PlanStep(proto, Plan([], None), es[0], OnIterationValue);
    assert PlanTable(proto, es, OnInstance) == PlanStep(proto, Plan([], None), es[0], OnInstance);
  }
}

=== FILE: binding.dfy ===
/** What binding and teardown compute (widget.js lines 20-112), as functions
    of the widget's prototype: which records a declaration table yields, which
    calls a widget makes on the event sources, and what the registries hold
    afterwards. The `Lifecycle` module performs these steps one at a time. */
module Binding {
  import opened Values
  import opened KeySplitter
  import opened Prototypes
  import opened Registry

  /** One element of a record array: `[eventName, selector, method]` for the
      DOM, `[channelName, eventName, method]` for the bus. */
  datatype Record = Record(first: string, second: string, handler: FnId)

  /** A key of a declaration table and the handler value given for it. */
  type Entry = (string, Value)

  /** The entries `$.each` visits for `self.events` or `self.channels`: those
      of a plain object, and none when the member is missing or not an object
      (`events && events instanceof Object`). A function is an object too, but
      has no enumerable members of its own. */
  function Entries(v: Option<Value>): (es: seq<Entry>)
    ensures es != [] ==> v.Some? && v.value.Table? && es == v.value.entries
    ensures v.Some? && v.value.Table? ==> es == v.value.entries
  {
    match v
    case Some(Table(es)) => es
    case _ => []
  }

  /** Where a handler given by name is looked up. */
  datatype Context =
    | OnInstance        // `self[method]`, as for DOM handlers (line 28)
    | OnIterationValue  // `this[method]` inside the `$.each` callback (line 42)

  /** A handler value that is a function is used as it is; any other value is
      taken as a property name and read in `ctx`. A read that yields no
      function resolves to nothing and the entry is skipped. Inside the
      `$.each` callback `this` is the boxed handler string itself, which the
      model takes to have no function-valued property. */
  function Resolve(proto: Proto, v: Value, ctx: Context): (h: Option<FnId>)
    ensures v.Function? ==> h == Some(v.id)
    ensures !v.Text? && !v.Function? ==> h.None?
    ensures ctx == OnIterationValue ==> (h.Some? <==> v.Function?)
    ensures ctx == OnInstance && v.Text? ==>
              (h.Some? <==> Lookup(proto, v.s).Some? && Lookup(proto, v.s).value.Function?)
    ensures ctx == OnInstance && v.Text? && h.Some? ==> Lookup(proto, v.s) == Some(Function(h.value))
  {
    match v
    case Function(id) => Some(id)
    case Text(name) =>
      if ctx == OnIterationValue then None
      else (match Lookup(proto, name) case Some(Function(id)) => Some(id) case _ => None)
    case _ => None
  }

  /** The records one `$.each` loop appends, and the key whose failed match
      ended the loop early (`match[1]` on null throws), if any. */
  datatype Plan = Plan(records: seq<Record>, malformed: Option<string>)

  /** One iteration of the `$.each` callback, after the loop so far gave `p`:
      an entry whose handler does not resolve is skipped (`return true`), the
      key of one that does is split and a record appended; a key that does
      not match throws. */
  function PlanStep(proto: Proto, p: Plan, e: Entry, ctx: Context): (q: Plan)
    ensures p.malformed.Some? || Resolve(proto, e.1, ctx).None? ==> q == p
    ensures p.records <= q.records && |q.records| <= |p.records| + 1
    ensures q != p ==> (q.malformed.Some? <==> Split(e.0).None?)
    ensures q.malformed.Some? && q != p ==> q.malformed == Some(e.0) && q.records == p.records
    ensures p.malformed.None? && Resolve(proto, e.1, ctx).Some? && Split(e.0).Some? ==>
              q == Plan(p.records + [Record(Split(e.0).value.0, Split(e.0).value.1, Resolve(proto, e.1, ctx).value)], None)
  {
    if p.malformed.Some? then p
    else
      match Resolve(proto, e.1, ctx)
      case None => p
      case Some(h) =>
        match Split(e.0)
        case None => Plan(p.records, Some(e.0))
        case Some((first, second)) => Plan(p.records + [Record(first, second, h)], None)
  }

  /** The `$.each` loop over a declaration table (lines 26-37, 40-51), entry
      by entry in iteration order; the first key that does not match ends the
      loop. */
  function PlanTable(proto: Proto, es: seq<Entry>, ctx: Context): (p: Plan)
    ensures |p.records| <= |es|
    decreases |es|
  {
    if es == [] then Plan([], None)
    else
      var n := |es| - 1;
      PlanStep(proto, PlanTable(proto, es[..n], ctx), es[n], ctx)
  }

  /** The loop over one more entry is one more step. */
  lemma PlanTableNext(proto: Proto, es: seq<Entry>, i: nat, ctx: Context)
    requires i < |es|
    ensures PlanTable(proto, es[..i + 1], ctx) == PlanStep(proto, PlanTable(proto, es[..i], ctx), es[i], ctx)
  {
    assert es[..i + 1][..i] == es[..i];
  }

  /** Every record comes from an entry of the table whose handler resolved to
      the record's handler and whose key splits into the record's two names. */
  lemma {:induction false} PlanRecordsFromEntries(proto: Proto, es: seq<Entry>, ctx: Context)
    ensures forall r :: r in PlanTable(proto, es, ctx).records ==>
              exists k :: 0 <= k < |es| && Resolve(proto, es[k].1, ctx) == Some(r.handler)
                                       && Split(es[k].0) == Some((r.first, r.second))
    decreases |es|
  {
    if es != [] {
      var n := |es| - 1;
      var prev := PlanTable(proto, es[..n], ctx);
      PlanRecordsFromEntries(proto, es[..n], ctx);
      forall r | r in PlanTable(proto, es, ctx).records
        ensures exists k :: 0 <= k < |es| && Resolve(proto, es[k].1, ctx) == Some(r.handler)
                                         && Split(es[k].0) == Some((r.first, r.second))
      {
        if r in prev.records {
          var k :| 0 <= k < n && Resolve(proto, es[..n][k].1, ctx) == Some(r.handler)
                              && Split(es[..n][k].0) == Some((r.first, r.second));
          assert es[..n][k] == es[k];
        } else {
          assert Resolve(proto, es[n].1, ctx) == Some(r.handler) && Split(es[n].0) == Some((r.first, r.second));
        }
      }
    }
  }

  /** A loop that ended early names the key of an entry whose handler
      resolved and whose key does not match. */
  lemma {:induction false} PlanMalformedFromEntry(proto: Proto, es: seq<Entry>, ctx: Context)
    ensures PlanTable(proto, es, ctx).malformed.Some? ==>
              exists k :: 0 <= k < |es| && es[k].0 == PlanTable(proto, es, ctx).malformed.value
                                       && Resolve(proto, es[k].1, ctx).Some? && Split(es[k].0).None?
    decreases |es|
  {
    if es != [] {
      var n := |es| - 1;
      var prev := PlanTable(proto, es[..n], ctx);
      PlanMalformedFromEntry(proto, es[..n], ctx);
      if prev.malformed.Some? {
        var k :| 0 <= k < n && es[..n][k].0 == prev.malformed.value
                            && Resolve(proto, es[..n][k].1, ctx).Some? && Split(es[..n][k].0).None?;
        assert es[..n][k] == es[k];
      }
    }
  }

  /** An entry whose handler does not resolve makes no difference to the
      loop: it adds no record and cannot end the loop. */
  lemma {:induction false} PlanSkipsUnresolved(proto: Proto, xs: seq<Entry>, e: Entry, ys: seq<Entry>, ctx: Context)
    requires Resolve(proto, e.1, ctx).None?
    ensures PlanTable(proto, xs + [e] + ys, ctx) == PlanTable(proto, xs + ys, ctx)
    decreases |ys|
  {
    if ys == [] {
      assert xs + [e] + ys == xs + [e];
      assert (xs + [e])[..|xs|] == xs;
      assert xs + ys == xs;
    } else {
      var n := |ys| - 1;
      PlanSkipsUnresolved(proto, xs, e, ys[..n], ctx);
      assert (xs + [e] + ys)[..|xs| + 1 + n] == xs + [e] + ys[..n];
      assert (xs + ys)[..|xs| + n] == xs + ys[..n];
      assert (xs + [e] + ys)[|xs| + 1 + n] == ys[n] == (xs + ys)[|xs| + n];
    }
  }

  /** An entry whose handler resolves and whose key matches is bound, with
      the names its key splits into, unless an earlier key ended the loop;
      later entries do not take its record away. */
  lemma EntryBound(proto: Proto, xs: seq<Entry>, key: string, v: Value, ys: seq<Entry>, f: FnId, ctx: Context)
    requires Resolve(proto, v, ctx) == Some(f) && Split(key).Some?
    requires PlanTable(proto, xs, ctx).malformed.None?
    ensures Record(Split(key).value.0, Split(key).value.1, f) in PlanTable(proto, xs + [(key, v)] + ys, ctx).records
  {
    var e := (key, v);
    var r := Record(Split(key).value.0, Split(key).value.1, f);
    assert (xs + [e])[..|xs|] == xs;
    assert (xs + [e])[|xs|] == e;
    var pre := PlanTable(proto, xs + [e], ctx).records;
    var whole := PlanTable(proto, xs + [e] + ys, ctx).records;
    assert pre == PlanTable(proto, xs, ctx).records + [r];
    PlanPrefix(proto, xs + [e], ys, ctx);
    assert whole[|pre| - 1] == pre[|pre| - 1] == r;
  }

  /** A handler given by the name of a method of the instance is bound, with
      the names its key splits into, unless an earlier key ended the loop. */
  lemma NamedHandlerBound(proto: Proto, xs: seq<Entry>, key: string, name: string, ys: seq<Entry>, f: FnId)
    requires Lookup(proto, name) == Some(Function(f)) && Split(key).Some?
    requires PlanTable(proto, xs, OnInstance).malformed.None?
    ensures Record(Split(key).value.0, Split(key).value.1, f) in PlanTable(proto, xs + [(key, Text(name))] + ys, OnInstance).records
  {
    EntryBound(proto, xs, key, Text(name), ys, f, OnInstance);
  }

  /** Records follow the iteration order of the table: the records of a prefix
      of the table begin the records of the whole, and once a key has ended
      the loop, later entries change nothing. */
  lemma {:induction false} PlanPrefix(proto: Proto, xs: seq<Entry>, ys: seq<Entry>, ctx: Context)
    ensures PlanTable(proto, xs, ctx).records <= PlanTable(proto, xs + ys, ctx).records
    ensures PlanTable(proto, xs, ctx).malformed.Some? ==> PlanTable(proto, xs + ys, ctx) == PlanTable(proto, xs, ctx)
    decreases |ys|
  {
    if ys == [] {
      assert xs + ys == xs;
    } else {
      var n := |ys| - 1;
      PlanPrefix(proto, xs, ys[..n], ctx);
      assert (xs + ys)[..|xs| + n] == xs + ys[..n];
    }
  }

  /** A key that ends the loop at entry `i` decides the outcome of the loop
      over the whole table. */
  lemma PlanStopsAt(proto: Proto, es: seq<Entry>, i: nat, ctx: Context)
    requires i < |es| && PlanTable(proto, es[..i + 1], ctx).malformed.Some?
    ensures PlanTable(proto, es, ctx) == PlanTable(proto, es[..i + 1], ctx)
  {
    PlanPrefix(proto, es[..i + 1], es[i + 1..], ctx);
    PrefixRest(es, i + 1);
  }

  /** `self.el || 'body'`: what handlers are put on and taken off. A
      non-empty string is a selector, an object is used as it is, and any
      falsy value gives `'body'`. */
  function TargetOf(el: Value): (t: Target)
    ensures el.Text? && el.s != "" ==> t == Selector(el.s)
    ensures el.Table? || el.Function? ==> t == Element(el)
    ensures el.Undefined? || el.Null? || el == Text("") ==> t == Selector("body")
  {
    match el
    case Text(s) => if s != "" then Selector(s) else Selector("body")
    case Table(_) => Element(el)
    case Function(_) => Element(el)
    case _ => Selector("body")
  }

  /** The DOM registration of a record on `target` (lines 62-67, 84-89):
      delegated to the selector when it is non-empty, on the element itself
      when it is empty. */
  function DomRegFor(target: Target, r: Record): (reg: DomReg)
    ensures reg.target == target && reg.event == r.first && reg.handler == r.handler
    ensures reg.scope.OnElement? <==> r.second == ""
    ensures reg.scope.Within? ==> reg.scope.selector == r.second
  {
    DomReg(target, r.first, if r.second == "" then OnElement else Within(r.second), r.handler)
  }

  /** The bus subscription of a record (lines 77, 95). */
  function BusRegFor(r: Record): BusReg
  {
    BusReg(r.first, r.second, Proxy(r.handler))
  }

  /** The subscription that triggers teardown (line 53). */
  function TeardownSubscription(owner: object): BusReg
  {
    BusReg("common.page", "switchend", TeardownOf(owner))
  }

  /** The DOM registrations of the records, in record order. */
  function DomRegs(target: Target, rs: seq<Record>): (regs: seq<DomReg>)
    ensures |regs| == |rs|
    decreases |rs|
  {
    if rs == [] then [] else DomRegs(target, rs[..|rs| - 1]) + [DomRegFor(target, rs[|rs| - 1])]
  }

  /** The bus subscriptions of the records, in record order. */
  function BusRegs(rs: seq<Record>): (regs: seq<BusReg>)
    ensures |regs| == |rs|
    decreases |rs|
  {
    if rs == [] then [] else BusRegs(rs[..|rs| - 1]) + [BusRegFor(rs[|rs| - 1])]
  }

  /** The `on` calls of `_bindBrowserEvent`, one per record, in record order. */
  function DomBindCalls(target: Target, rs: seq<Record>): (cs: seq<Call>)
    ensures |cs| == |rs|
    decreases |rs|
  {
    if rs == [] then [] else DomBindCalls(target, rs[..|rs| - 1]) + [DomOn(DomRegFor(target, rs[|rs| - 1]))]
  }

  /** The `off` calls of `_unbindBrowserEvent`, one per record, in record order. */
  function DomUnbindCalls(target: Target, rs: seq<Record>): (cs: seq<Call>)
    ensures |cs| == |rs|
    decreases |rs|
  {
    if rs == [] then [] else DomUnbindCalls(target, rs[..|rs| - 1]) + [DomOff(DomRegFor(target, rs[|rs| - 1]))]
  }

  /** The `listener.on` calls of `_bindCustomerEvent`, one per record. */
  function BusBindCalls(rs: seq<Record>): (cs: seq<Call>)
    ensures |cs| == |rs|
    decreases |rs|
  {
    if rs == [] then [] else BusBindCalls(rs[..|rs| - 1]) + [BusOn(BusRegFor(rs[|rs| - 1]))]
  }

  /** The `listener.off` calls of `_unbindChannelEvent`, one per record. */
  function BusUnbindCalls(rs: seq<Record>): (cs: seq<Call>)
    ensures |cs| == |rs|
    decreases |rs|
  {
    if rs == [] then [] else BusUnbindCalls(rs[..|rs| - 1]) + [BusOff(BusRegFor(rs[|rs| - 1]))]
  }

  /** One more record adds its registration call at the end. */
  lemma DomBindCallsNext(target: Target, rs: seq<Record>, r: Record)
    ensures DomBindCalls(target, rs + [r]) == DomBindCalls(target, rs) + [DomOn(DomRegFor(target, r))]
  {
    assert (rs + [r])[..|rs|] == rs;
  }

  lemma BusBindCallsNext(rs: seq<Record>, r: Record)
    ensures BusBindCalls(rs + [r]) == BusBindCalls(rs) + [BusOn(BusRegFor(r))]
  {
    assert (rs + [r])[..|rs|] == rs;
  }

  /** The k-th registration and the k-th call of each list belong to the
      k-th record, with its own triple. */
  lemma {:induction false} CallsAt(target: Target, rs: seq<Record>, k: nat)
    requires k < |rs|
    ensures DomRegs(target, rs)[k] == DomRegFor(target, rs[k])
    ensures BusRegs(rs)[k] == BusRegFor(rs[k])
    ensures DomBindCalls(target, rs)[k] == DomOn(DomRegFor(target, rs[k]))
    ensures DomUnbindCalls(target, rs)[k] == DomOff(DomRegFor(target, rs[k]))
    ensures BusBindCalls(rs)[k] == BusOn(BusRegFor(rs[k]))
    ensures BusUnbindCalls(rs)[k] == BusOff(BusRegFor(rs[k]))
    decreases |rs|
  {
    var n := |rs| - 1;
    if k < n {
      CallsAt(target, rs[..n], k);
    }
  }

  /** What `_bind` leaves behind: both record arrays, the calls made, and the
      key that ended it early, if any. */
  datatype Effect = Effect(browser: seq<Record>, channel: seq<Record>, calls: seq<Call>, failure: Option<string>)

  /** The `events` loop (lines 25-38): handler names are read on the
      instance. Without an `events` table nothing is bound. */
  function EventsPlan(proto: Proto): (p: Plan)
    ensures !(Lookup(proto, "events").Some? && Lookup(proto, "events").value.Table?) ==> p == Plan([], None)
    ensures |p.records| <= |Entries(Lookup(proto, "events"))|
  {
    PlanTable(proto, Entries(Lookup(proto, "events")), OnInstance)
  }

  /** The `channels` loop (lines 39-52), with channel handler names read on
      the instance, like DOM handler names. Without a `channels` table
      nothing is subscribed. */
  function ChannelsPlan(proto: Proto): (p: Plan)
    ensures !(Lookup(proto, "channels").Some? && Lookup(proto, "channels").value.Table?) ==> p == Plan([], None)
    ensures |p.records| <= |Entries(Lookup(proto, "channels"))|
  {
    PlanTable(proto, Entries(Lookup(proto, "channels")), OnInstance)
  }

  /** The call that ends a binding that nothing interrupted (line 53). */
  function Finish(failure: Option<string>, owner: object): (cs: seq<Call>)
    ensures cs != [] <==> failure.None?
    ensures forall k :: 0 <= k < |cs| ==> cs[k] == BusOn(TeardownSubscription(owner))
    ensures |cs| <= 1
  {
    if failure.None? then [BusOn(TeardownSubscription(owner))] else []
  }

  /** `_bind` (lines 20-54) for the widget `owner` with prototype `proto`,
      bound on `target`: every DOM binding, then every channel binding, then
      the teardown subscription. A key that does not match throws out of
      `_bind`, so nothing after it happens. */
  function BindEffect(proto: Proto, target: Target, owner: object): (e: Effect)
    ensures e.browser == EventsPlan(proto).records
    ensures EventsPlan(proto).malformed.Some? ==> e.channel == [] && e.failure == EventsPlan(proto).malformed
    ensures EventsPlan(proto).malformed.None? ==>
              e.channel == ChannelsPlan(proto).records && e.failure == ChannelsPlan(proto).malformed
    ensures e.calls == DomBindCalls(target, e.browser) + BusBindCalls(e.channel) + Finish(e.failure, owner)
  {
    var pb := EventsPlan(proto);
    if pb.malformed.Some? then
      assert DomBindCalls(target, pb.records) + BusBindCalls([]) + [] == DomBindCalls(target, pb.records);
      Effect(pb.records, [], DomBindCalls(target, pb.records), pb.malformed)
    else
      var pc := ChannelsPlan(proto);
      Effect(pb.records, pc.records,
             DomBindCalls(target, pb.records) + BusBindCalls(pc.records) + Finish(pc.malformed, owner),
             pc.malformed)
  }

  /** Where the calls of a binding stop: after the DOM registrations when an
      `events` key throws, after the bus registrations when a `channels` key
      throws, and after the teardown subscription otherwise. */
  lemma BindEffectStages(proto: Proto, target: Target, owner: object)
    ensures var e := BindEffect(proto, target, owner);
            EventsPlan(proto).malformed.Some? ==> e.calls == DomBindCalls(target, e.browser)
    ensures var e := BindEffect(proto, target, owner);
            EventsPlan(proto).malformed.None? && ChannelsPlan(proto).malformed.Some? ==>
              e.calls == DomBindCalls(target, e.browser) + BusBindCalls(e.channel)
    ensures var e := BindEffect(proto, target, owner);
            e.failure.None? ==>
              e.calls == DomBindCalls(target, e.browser) + BusBindCalls(e.channel) + [BusOn(TeardownSubscription(owner))]
  {
    var e := BindEffect(proto, target, owner);
    if EventsPlan(proto).malformed.Some? {
      assert DomBindCalls(target, e.browser) + BusBindCalls([]) + [] == DomBindCalls(target, e.browser);
    } else if ChannelsPlan(proto).malformed.Some? {
      assert DomBindCalls(target, e.browser) + BusBindCalls(e.channel) + [] == DomBindCalls(target, e.browser) + BusBindCalls(e.channel);
    }
  }

  /** The layout of the calls of a binding with records `browser` and
      `channel`: one registration per record, with the record's own triple,
      in record order, then what `Finish` adds. */
  lemma BindCallsLayout(target: Target, browser: seq<Record>, channel: seq<Record>, failure: Option<string>, owner: object)
    ensures var cs := DomBindCalls(target, browser) + BusBindCalls(channel) + Finish(failure, owner);
            && |cs| == |browser| + |channel| + (if failure.None? then 1 else 0)
            && (forall k :: 0 <= k < |browser| ==> cs[k] == DomOn(DomRegFor(target, browser[k])))
            && (forall k :: 0 <= k < |channel| ==> cs[|browser| + k] == BusOn(BusRegFor(channel[k])))
  {
    var doms := DomBindCalls(target, browser);
    var buses := BusBindCalls(channel);
    var cs := doms + buses + Finish(failure, owner);
    forall k | 0 <= k < |browser| ensures cs[k] == DomOn(DomRegFor(target, browser[k])) {
      CallsAt(target, browser, k);
      assert cs[k] == doms[k];
    }
    forall k | 0 <= k < |channel| ensures cs[|browser| + k] == BusOn(BusRegFor(channel[k])) {
      CallsAt(target, channel, k);
      assert cs[|browser| + k] == buses[k];
    }
  }

  /** Only when nothing threw does binding subscribe to the teardown signal,
      exactly once, as its last call. */
  lemma TeardownSubscribedOnce(target: Target, browser: seq<Record>, channel: seq<Record>, failure: Option<string>, owner: object)
    ensures var cs := DomBindCalls(target, browser) + BusBindCalls(channel) + Finish(failure, owner);
            && (failure.None? ==> cs[|cs| - 1] == BusOn(TeardownSubscription(owner)))
            && (failure.None? ==> multiset(cs)[BusOn(TeardownSubscription(owner))] == 1)
            && (failure.Some? ==> BusOn(TeardownSubscription(owner)) !in cs)
  {
    var doms := DomBindCalls(target, browser);
    var buses := BusBindCalls(channel);
    var sub := BusOn(TeardownSubscription(owner));
    forall k | 0 <= k < |doms| ensures doms[k] != sub {
      CallsAt(target, browser, k);
    }
    forall k | 0 <= k < |buses| ensures buses[k] != sub {
      CallsAt(target, channel, k);
    }
    assert sub !in doms + buses;
    assert multiset(doms + buses)[sub] == 0;
  }

  /** `_destroy` (lines 100-112) as calls: `destroy` first, then one `off` per
      DOM record and one `listener.off` per channel record, in record order. */
  function TeardownCalls(hook: FnId, target: Target, browser: seq<Record>, channel: seq<Record>): (cs: seq<Call>)
    ensures |cs| == 1 + |browser| + |channel|
    ensures cs[0] == Invoked(hook, None)
  {
    [Invoked(hook, None)] + DomUnbindCalls(target, browser) + BusUnbindCalls(channel)
  }

  /** `_destroy` with `destroy` guarded as `_init` guards `init` (line 15):
      the component's `destroy` only when it has one, and every record
      unregistered in either case. */
  function ReleaseCalls(hook: Option<FnId>, target: Target, browser: seq<Record>, channel: seq<Record>): (cs: seq<Call>)
    ensures hook.Some? ==> cs == TeardownCalls(hook.value, target, browser, channel)
    ensures hook.None? ==> cs == DomUnbindCalls(target, browser) + BusUnbindCalls(channel)
  {
    if hook.Some? then TeardownCalls(hook.value, target, browser, channel)
    else DomUnbindCalls(target, browser) + BusUnbindCalls(channel)
  }

  /** The call that reverses a registration. */
  function Undo(c: Call): Call
  {
    match c
    case DomOn(r) => DomOff(r)
    case BusOn(r) => BusOff(r)
    case _ => c
  }

  lemma MirrorAt(target: Target, browser: seq<Record>, channel: seq<Record>, owner: object, hook: FnId, k: nat)
    requires k < |browser| + |channel|
    ensures var calls := DomBindCalls(target, browser) + BusBindCalls(channel) + Finish(None, owner);
            var td := TeardownCalls(hook, target, browser, channel);
            k < |calls| && k + 1 < |td| && td[k + 1] == Undo(calls[k])
  {
    var doms := DomBindCalls(target, browser);
    var buses := BusBindCalls(channel);
    var offs := DomUnbindCalls(target, browser);
    var unsubs := BusUnbindCalls(channel);
    var calls := doms + buses + Finish(None, owner);
    var td := TeardownCalls(hook, target, browser, channel);
    var nb := |browser|;
    if k < nb {
      CallsAt(target, browser, k);
      assert calls[k] == doms[k];
      assert td[k + 1] == offs[k];
    } else {
      var j := k - nb;
      CallsAt(target, channel, j);
      assert calls[k] == buses[j];
      assert td[k + 1] == unsubs[j];
    }
  }

  /** Teardown mirrors binding: after the `destroy` call, the k-th call of
      teardown reverses the k-th registration of the binding that made the
      records, with the same triple; only the teardown subscription itself,
      the binding's last call, is never reversed. */
  lemma TeardownMirrorsBind(target: Target, browser: seq<Record>, channel: seq<Record>, owner: object, hook: FnId)
    ensures var calls := DomBindCalls(target, browser) + BusBindCalls(channel) + Finish(None, owner);
            var td := TeardownCalls(hook, target, browser, channel);
            && |td| == |calls|
            && td[0] == Invoked(hook, None)
            && forall k :: 0 <= k < |calls| - 1 ==> td[k + 1] == Undo(calls[k])
  {
    var calls := DomBindCalls(target, browser) + BusBindCalls(channel) + Finish(None, owner);
    var td := TeardownCalls(hook, target, browser, channel);
    assert |calls| == |browser| + |channel| + 1;
    forall k | 0 <= k < |calls| - 1 ensures td[k + 1] == Undo(calls[k]) {
      MirrorAt(target, browser, channel, owner, hook, k);
    }
  }

  /** `off` for every record takes out of the DOM registry exactly what one
      of those `off` calls matches, and leaves every other registration as it
      was. */
  lemma {:induction false} DomUnbindClears(log: seq<Call>, target: Target, rs: seq<Record>, x: DomReg)
    ensures DomCount(log + DomUnbindCalls(target, rs), x) ==
              if Unregistered(DomRegs(target, rs), x) then 0 else DomCount(log, x)
    decreases |rs|
  {
    if rs == [] {
      assert log + DomUnbindCalls(target, rs) == log;
    } else {
      var n := |rs| - 1;
      var off := DomRegFor(target, rs[n]);
      DomUnbindClears(log, target, rs[..n], x);
      AppendAssoc(log, DomUnbindCalls(target, rs[..n]), [DomOff(off)]);
      DomCountAfter(log + DomUnbindCalls(target, rs[..n]), DomOff(off), x);
      UnregisteredNext(DomRegs(target, rs[..n]), off, x);
    }
  }

  lemma {:induction false} BusUnbindClears(log: seq<Call>, rs: seq<Record>)
    ensures ActiveBus(log + BusUnbindCalls(rs)) == Without(ActiveBus(log), BusRegs(rs))
    decreases |rs|
  {
    if rs == [] {
      assert log + BusUnbindCalls(rs) == log;
    } else {
      var n := |rs| - 1;
      var c := BusOff(BusRegFor(rs[n]));
      BusUnbindClears(log, rs[..n]);
      AppendAssoc(log, BusUnbindCalls(rs[..n]), [c]);
      ActiveAfter(log + BusUnbindCalls(rs[..n]), c);
      assert BusRegs(rs)[..n] == BusRegs(rs[..n]);
    }
  }

  /** `on` for every record adds exactly the records' registrations. */
  lemma {:induction false} DomBindAdds(log: seq<Call>, target: Target, rs: seq<Record>, x: DomReg)
    ensures DomCount(log + DomBindCalls(target, rs), x) == DomCount(log, x) + multiset(DomRegs(target, rs))[x]
    decreases |rs|
  {
    if rs == [] {
      assert log + DomBindCalls(target, rs) == log;
    } else {
      var n := |rs| - 1;
      var c := DomOn(DomRegFor(target, rs[n]));
      DomBindAdds(log, target, rs[..n], x);
      AppendAssoc(log, DomBindCalls(target, rs[..n]), [c]);
      DomCountAfter(log + DomBindCalls(target, rs[..n]), c, x);
    }
  }

  lemma {:induction false} BusBindAdds(log: seq<Call>, rs: seq<Record>)
    ensures ActiveBus(log + BusBindCalls(rs)) == ActiveBus(log) + multiset(BusRegs(rs))
    decreases |rs|
  {
    if rs == [] {
      assert log + BusBindCalls(rs) == log;
    } else {
      var n := |rs| - 1;
      var c := BusOn(BusRegFor(rs[n]));
      BusBindAdds(log, rs[..n]);
      AppendAssoc(log, BusBindCalls(rs[..n]), [c]);
      ActiveAfter(log + BusBindCalls(rs[..n]), c);
    }
  }

  /** DOM calls leave the bus as it was, and bus calls the DOM. */
  lemma DomCallsKeepBus(log: seq<Call>, target: Target, rs: seq<Record>)
    ensures ActiveBus(log + DomBindCalls(target, rs)) == ActiveBus(log)
    ensures ActiveBus(log + DomUnbindCalls(target, rs)) == ActiveBus(log)
  {
    forall k | 0 <= k < |rs|
      ensures !TouchesBus(DomBindCalls(target, rs)[k]) && !TouchesBus(DomUnbindCalls(target, rs)[k])
    {
      CallsAt(target, rs, k);
    }
    ActiveBusSkips(log, DomBindCalls(target, rs));
    ActiveBusSkips(log, DomUnbindCalls(target, rs));
  }

  lemma BusCallsKeepDom(log: seq<Call>, rs: seq<Record>, x: DomReg)
    ensures DomCount(log + BusBindCalls(rs), x) == DomCount(log, x)
    ensures DomCount(log + BusUnbindCalls(rs), x) == DomCount(log, x)
  {
    forall k | 0 <= k < |rs|
      ensures !TouchesDom(BusBindCalls(rs)[k]) && !TouchesDom(BusUnbindCalls(rs)[k])
    {
      CallsAt(Selector(""), rs, k);
    }
    DomCountSkips(log, BusBindCalls(rs), x);
    DomCountSkips(log, BusUnbindCalls(rs), x);
  }

  /** The `off` loops of teardown, after whatever preceded them. */
  lemma UnbindClears(log: seq<Call>, target: Target, browser: seq<Record>, channel: seq<Record>, x: DomReg)
    ensures var after := log + DomUnbindCalls(target, browser) + BusUnbindCalls(channel);
            && DomCount(after, x) == (if Unregistered(DomRegs(target, browser), x) then 0 else DomCount(log, x))
            && ActiveBus(after) == Without(ActiveBus(log), BusRegs(channel))
  {
    var l1 := log + DomUnbindCalls(target, browser);
    DomUnbindClears(log, target, browser, x);
    DomCallsKeepBus(log, target, browser);
    BusCallsKeepDom(l1, channel, x);
    BusUnbindClears(l1, channel);
  }

  /** Teardown takes out of the DOM registry exactly what one of its `off`
      calls matches, and every recorded subscription off the bus. */
  lemma TeardownClears(log: seq<Call>, hook: FnId, target: Target, browser: seq<Record>, channel: seq<Record>, x: DomReg)
    ensures var after := log + TeardownCalls(hook, target, browser, channel);
            && DomCount(after, x) == (if Unregistered(DomRegs(target, browser), x) then 0 else DomCount(log, x))
            && ActiveBus(after) == Without(ActiveBus(log), BusRegs(channel))
  {
    var hookCall := Invoked(hook, None);
    var l1 := log + [hookCall];
    AppendStages(log, [hookCall], DomUnbindCalls(target, browser), BusUnbindCalls(channel));
    DomCountAfter(log, hookCall, x);
    ActiveAfter(log, hookCall);
    UnbindClears(l1, target, browser, channel, x);
  }

  /** With or without a `destroy`, release takes out of the DOM registry
      exactly what one of its `off` calls matches, and every recorded
      subscription off the bus. */
  lemma ReleaseClears(log: seq<Call>, hook: Option<FnId>, target: Target, browser: seq<Record>, channel: seq<Record>, x: DomReg)
    ensures var after := log + ReleaseCalls(hook, target, browser, channel);
            && DomCount(after, x) == (if Unregistered(DomRegs(target, browser), x) then 0 else DomCount(log, x))
            && ActiveBus(after) == Without(ActiveBus(log), BusRegs(channel))
  {
    if hook.Some? {
      TeardownClears(log, hook.value, target, browser, channel, x);
    } else {
      AppendAssoc(log, DomUnbindCalls(target, browser), BusUnbindCalls(channel));
      UnbindClears(log, target, browser, channel, x);
    }
  }

  /** Whatever happened before, teardown leaves none of the recorded
      bindings registered, and every registration that none of its `off`
      calls matches as it was. */
  lemma TeardownClearsAt(log: seq<Call>, hook: FnId, target: Target, browser: seq<Record>, channel: seq<Record>)
    ensures var after := log + TeardownCalls(hook, target, browser, channel);
            forall x :: DomCount(after, x) == if Unregistered(DomRegs(target, browser), x) then 0 else DomCount(log, x)
    ensures var after := log + TeardownCalls(hook, target, browser, channel);
            forall x :: ActiveBus(after)[x] == if x in BusRegs(channel) then 0 else ActiveBus(log)[x]
  {
    var after := log + TeardownCalls(hook, target, browser, channel);
    forall x ensures DomCount(after, x) == if Unregistered(DomRegs(target, browser), x) then 0 else DomCount(log, x) {
      TeardownClears(log, hook, target, browser, channel, x);
    }
    TeardownClears(log, hook, target, browser, channel, DomReg(target, "", OnElement, 0));
    forall x ensures Without(ActiveBus(log), BusRegs(channel))[x] ==
                       if x in BusRegs(channel) then 0 else ActiveBus(log)[x] {
      WithoutAt(ActiveBus(log), BusRegs(channel), x);
    }
  }

  /** An `off` without a selector matches the same handler delegated to any
      selector: teardown of a record with an empty selector also takes away
      a delegated registration of the same event and handler on the same
      target, such as one another widget of the same type made. */
  lemma TeardownTakesDelegated(log: seq<Call>, hook: FnId, target: Target, browser: seq<Record>, channel: seq<Record>,
                               k: nat, selector: string)
    requires k < |browser| && browser[k].second == ""
    ensures DomCount(log + TeardownCalls(hook, target, browser, channel),
                     DomReg(target, browser[k].first, Within(selector), browser[k].handler)) == 0
  {
    var x := DomReg(target, browser[k].first, Within(selector), browser[k].handler);
    CallsAt(target, browser, k);
    assert Unregisters(DomRegs(target, browser)[k], x);
    TeardownClears(log, hook, target, browser, channel, x);
  }

  /** The calls of a binding that nothing interrupted, followed by the calls
      of teardown. */
  function Lifetime(target: Target, browser: seq<Record>, channel: seq<Record>, owner: object, hook: FnId): seq<Call>
  {
    (DomBindCalls(target, browser) + BusBindCalls(channel) + Finish(None, owner))
    + TeardownCalls(hook, target, browser, channel)
  }

  /** The registries just after a binding that nothing interrupted: its
      records' registrations and the teardown subscription added. */
  lemma BindAdds(log: seq<Call>, target: Target, browser: seq<Record>, channel: seq<Record>, owner: object, x: DomReg)
    ensures var after := log + (DomBindCalls(target, browser) + BusBindCalls(channel) + Finish(None, owner));
            && DomCount(after, x) == DomCount(log, x) + multiset(DomRegs(target, browser))[x]
            && ActiveBus(after) == ActiveBus(log) + multiset(BusRegs(channel)) + multiset{TeardownSubscription(owner)}
  {
    var doms := DomBindCalls(target, browser);
    var buses := BusBindCalls(channel);
    var sub := BusOn(TeardownSubscription(owner));
    var l1 := log + doms;
    var l2 := l1 + buses;
    AppendStages(log, doms, buses, [sub]);
    DomBindAdds(log, target, browser, x);
    DomCallsKeepBus(log, target, browser);
    BusCallsKeepDom(l1, channel, x);
    BusBindAdds(l1, channel);
    DomCountAfter(l2, sub, x);
    ActiveAfter(l2, sub);
  }

  /** Binding followed by teardown gives back the DOM registrations binding
      started from, except that whatever teardown's `off` calls match is
      gone, including every recorded registration, even where an identical
      one was active before. */
  lemma BindThenTeardownDom(log: seq<Call>, target: Target, browser: seq<Record>, channel: seq<Record>, owner: object, hook: FnId)
    ensures forall x :: DomCount(log + Lifetime(target, browser, channel, owner, hook), x) ==
              if Unregistered(DomRegs(target, browser), x) then 0 else DomCount(log, x)
  {
    var bound := log + (DomBindCalls(target, browser) + BusBindCalls(channel) + Finish(None, owner));
    var td := TeardownCalls(hook, target, browser, channel);
    AppendAssoc(log, DomBindCalls(target, browser) + BusBindCalls(channel) + Finish(None, owner), td);
    forall x ensures DomCount(bound + td, x) == if Unregistered(DomRegs(target, browser), x) then 0 else DomCount(log, x) {
      BindAdds(log, target, browser, channel, owner, x);
      TeardownClears(bound, hook, target, browser, channel, x);
      if x in DomRegs(target, browser) {
        UnregisteredOwn(DomRegs(target, browser), x);
      }
    }
  }

  /** The same for the bus, except that the teardown subscription, which the
      source never removes, stays. */
  lemma BindThenTeardownBus(log: seq<Call>, target: Target, browser: seq<Record>, channel: seq<Record>, owner: object, hook: FnId)
    ensures forall x :: ActiveBus(log + Lifetime(target, browser, channel, owner, hook))[x] ==
              if x in BusRegs(channel) then 0
              else ActiveBus(log)[x] + (if x == TeardownSubscription(owner) then 1 else 0)
  {
    var bound := log + (DomBindCalls(target, browser) + BusBindCalls(channel) + Finish(None, owner));
    var td := TeardownCalls(hook, target, browser, channel);
    AppendAssoc(log, DomBindCalls(target, browser) + BusBindCalls(channel) + Finish(None, owner), td);
    BindAdds(log, target, browser, channel, owner, DomReg(target, "", OnElement, 0));
    TeardownClearsAt(bound, hook, target, browser, channel);
    forall x | x !in BusRegs(channel)
      ensures ActiveBus(bound)[x] == ActiveBus(log)[x] + (if x == TeardownSubscription(owner) then 1 else 0)
    {
      assert multiset(BusRegs(channel))[x] == 0;
    }
  }
}

=== FILE: key_splitter.dfy ===
/** The binding-key splitter of widget.js: the regular expression
    `^(\S+)\s*(.*)$` cuts a key into its first token and the rest.
    `"click .btn"` gives an event and a selector, `"common.page switchstart"`
    a channel and an event. `String.prototype.match` returns null when the
    expression does not match; the model returns `None`. */
module KeySplitter {
  import opened Values

  /** `\s` of an ECMAScript regular expression: WhiteSpace and LineTerminator. */
  predicate IsSpace(c: char)
  {
    var n := c as int;
    n == 0x09 || n == 0x0A || n == 0x0B || n == 0x0C || n == 0x0D || n == 0x20
    || n == 0xA0 || n == 0x1680 || (0x2000 <= n <= 0x200A)
    || n == 0x2028 || n == 0x2029 || n == 0x202F || n == 0x205F || n == 0x3000 || n == 0xFEFF
  }

  /** The characters that `.` does not match (no `s` flag). */
  predicate IsLineTerminator(c: char)
  {
    var n := c as int;
    n == 0x0A || n == 0x0D || n == 0x2028 || n == 0x2029
  }

  predicate NoSpace(s: string)
  {
    forall k :: 0 <= k < |s| ==> !IsSpace(s[k])
  }

  predicate AllSpace(s: string)
  {
    forall k :: 0 <= k < |s| ==> IsSpace(s[k])
  }

  predicate SingleLine(s: string)
  {
    forall k :: 0 <= k < |s| ==> !IsLineTerminator(s[k])
  }

  /** Where the greedy `(\S+)` that starts at `i` stops. */
  function TokenEnd(s: string, i: nat): (j: nat)
    requires i <= |s|
    ensures i <= j <= |s|
    ensures NoSpace(s[i..j])
    ensures j < |s| ==> IsSpace(s[j])
    decreases |s| - i
  {
    if i < |s| && !IsSpace(s[i]) then
      var j := TokenEnd(s, i + 1);
      assert s[i..j] == [s[i]] + s[i + 1..j];
      j
    else i
  }

  /** Where the greedy `\s*` that starts at `i` stops. */
  function SpaceEnd(s: string, i: nat): (j: nat)
    requires i <= |s|
    ensures i <= j <= |s|
    ensures AllSpace(s[i..j])
    ensures j < |s| ==> !IsSpace(s[j])
    decreases |s| - i
  {
    if i < |s| && IsSpace(s[i]) then
      var j := SpaceEnd(s, i + 1);
      assert s[i..j] == [s[i]] + s[i + 1..j];
      j
    else i
  }

  /** The two capture groups of `key.match(/^(\S+)\s*(.*)$/)`, or `None`
      where the match is null. The first match the backtracking engine finds
      is the greedy one, and when the greedy attempt fails no other does:
      giving characters back to `\S+` or `\s*` only lengthens what `(.*)`
      must cover. */
  function Split(key: string): (r: Option<(string, string)>)
    ensures r.Some? ==>
      var (first, rest) := r.value;
      && first != [] && NoSpace(first)
      && |first| + |rest| <= |key|
      && key == first + key[|first|..|key| - |rest|] + rest
      && AllSpace(key[|first|..|key| - |rest|])
      && (|first| < |key| ==> IsSpace(key[|first|]))
      && (rest != [] ==> !IsSpace(rest[0]))
      && SingleLine(rest)
  {
    var i := TokenEnd(key, 0);
    var j := SpaceEnd(key, i);
    if i == 0 || !SingleLine(key[j..]) then None
    else
      assert key == key[..i] + key[i..j] + key[j..];
      Some((key[..i], key[j..]))
  }

  lemma {:induction false} TokenEndAt(s: string, i: nat, m: nat)
    requires i <= m <= |s|
    requires NoSpace(s[i..m])
    requires m < |s| ==> IsSpace(s[m])
    ensures TokenEnd(s, i) == m
    decreases m - i
  {
    if i < m {
      assert s[i..m][0] == s[i];
      assert s[i + 1..m] == s[i..m][1..];
      TokenEndAt(s, i + 1, m);
    }
  }

  lemma {:induction false} SpaceEndAt(s: string, i: nat, m: nat)
    requires i <= m <= |s|
    requires AllSpace(s[i..m])
    requires m < |s| ==> !IsSpace(s[m])
    ensures SpaceEnd(s, i) == m
    decreases m - i
  {
    if i < m {
      assert s[i..m][0] == s[i];
      assert s[i + 1..m] == s[i..m][1..];
      SpaceEndAt(s, i + 1, m);
    }
  }

  /** Every decomposition of a key into a non-empty token, whitespace and a
      single-line rest that does not start with whitespace is the one the
      splitter finds: splitting is the inverse of joining such parts. */
  lemma SplitJoined(first: string, gap: string, rest: string)
    requires first != [] && NoSpace(first)
    requires AllSpace(gap)
    requires rest != [] ==> !IsSpace(rest[0])
    requires rest != [] ==> gap != []
    requires SingleLine(rest)
    ensures Split(first + gap + rest) == Some((first, rest))
  {
    var key := first + gap + rest;
    var i, j := |first|, |first| + |gap|;
    assert key[..i] == first;
    assert key[i..j] == gap;
    assert key[j..] == rest;
    TokenEndAt(key, 0, i);
    SpaceEndAt(key, i, j);
  }

  /** A line break after the start of the second part: after some
      whitespace and then a non-whitespace character. */
  predicate BreakInRest(key: string)
  {
    exists p, m, k :: 0 < p < m < k < |key| && IsSpace(key[p]) && !IsSpace(key[m]) && IsLineTerminator(key[k])
  }

  lemma NoMatchHasCause(key: string)
    requires Split(key).None? && key != [] && !IsSpace(key[0])
    ensures BreakInRest(key)
  {
    var i := TokenEnd(key, 0);
    var j := SpaceEnd(key, i);
    assert key[0..i][0] == key[0];
    assert !SingleLine(key[j..]);
    var d :| 0 <= d < |key[j..]| && IsLineTerminator(key[j..][d]);
    var k := j + d;
    assert IsLineTerminator(key[k]);
    assert !IsSpace(key[j]);
    assert IsSpace(key[i]);
    assert 0 < i < j < k < |key|;
  }

  /** The token cannot extend past a whitespace character. */
  lemma TokenStopsAtSpace(key: string, p: nat)
    requires p < |key| && IsSpace(key[p])
    ensures TokenEnd(key, 0) <= p
  {
    var i := TokenEnd(key, 0);
    assert forall q :: 0 <= q < i ==> !IsSpace(key[q]) by {
      forall q | 0 <= q < i ensures !IsSpace(key[q]) { assert key[0..i][q] == key[q]; }
    }
  }

  /** The whitespace run cannot extend past a non-whitespace character. */
  lemma GapStopsAtNonSpace(key: string, i: nat, m: nat)
    requires i <= m < |key| && !IsSpace(key[m])
    ensures SpaceEnd(key, i) <= m
  {
    var j := SpaceEnd(key, i);
    assert forall q :: i <= q < j ==> IsSpace(key[q]) by {
      forall q | i <= q < j ensures IsSpace(key[q]) { assert key[i..j][q - i] == key[q]; }
    }
  }

  /** A line terminator at or after `j` leaves `key[j..]` more than one line. */
  lemma BreakAfter(key: string, j: nat, k: nat)
    requires j <= k < |key| && IsLineTerminator(key[k])
    ensures !SingleLine(key[j..])
  {
    assert key[j..][k - j] == key[k];
  }

  lemma BreakInRestPreventsMatch(key: string)
    requires BreakInRest(key)
    ensures Split(key).None?
  {
    var p, m, k :| 0 < p < m < k < |key| && IsSpace(key[p]) && !IsSpace(key[m]) && IsLineTerminator(key[k]);
    TokenStopsAtSpace(key, p);
    GapStopsAtNonSpace(key, TokenEnd(key, 0), m);
    BreakAfter(key, SpaceEnd(key, TokenEnd(key, 0)), k);
  }

  /** A key has no match exactly when it is empty, starts with whitespace,
      or has a line terminator after the start of its second part. */
  lemma SplitFailsExactly(key: string)
    ensures Split(key).None? <==> (key == [] || IsSpace(key[0]) || BreakInRest(key))
  {
    if key != [] && IsSpace(key[0]) {
      assert TokenEnd(key, 0) == 0;
    } else if key != [] {
      if Split(key).None? {
        NoMatchHasCause(key);
      }
      if BreakInRest(key) {
        BreakInRestPreventsMatch(key);
      }
    }
  }
}

=== FILE: lifecycle.dfy ===
/** One widget instance and its lifecycle (widget.js lines 14-19, 20-112,
    114-116 and 124-127): constructing it runs `init` and then binds every
    declared handler; the broadcast `'common.page'` / `'switchend'` runs its
    teardown. Each instance owns its records and its `el` and `destroy`. */
module Lifecycle {
  import opened Values
  import opened KeySplitter
  import opened Prototypes
  import opened Registry
  import opened Binding

  /** `self.el` of a new instance: whatever the prototype chain provides
      (a selector string, an element or other object), or undefined. */
  function InitialEl(proto: Proto): (el: Value)
    ensures el != Undefined ==> Lookup(proto, "el") == Some(el)
    ensures Lookup(proto, "el").None? ==> el == Undefined
  {
    match Lookup(proto, "el")
    case Some(v) => v
    case None => Undefined
  }

  /** A hook (`init`, `destroy`) of the prototype chain, if it is a function. */
  function HookOf(proto: Proto, name: string): (h: Option<FnId>)
    ensures h.Some? <==> Lookup(proto, name).Some? && Lookup(proto, name).value.Function?
    ensures h.Some? ==> Lookup(proto, name) == Some(Function(h.value))
  {
    match Lookup(proto, name)
    case Some(Function(id)) => Some(id)
    case _ => None
  }

  /** `_init` (lines 14-17) calls `init(pageName)` when it is a function. */
  function InitCalls(proto: Proto, pageName: string): (cs: seq<Call>)
    ensures |cs| <= 1
    ensures cs != [] <==> HookOf(proto, "init").Some?
    ensures cs != [] ==> cs[0] == Invoked(HookOf(proto, "init").value, Some(pageName))
  {
    match HookOf(proto, "init")
    case Some(id) => [Invoked(id, Some(pageName))]
    case None => []
  }

  class Widget {
    /** The prototype of the instance, that is, its component type. */
    const proto: Proto
    /** `self.el`; set to undefined by teardown. */
    var el: Value
    /** `self.destroy`; set to null by teardown. */
    var destroy: Option<FnId>
    /** `[eventName, selector, method]` for each DOM binding, in binding order. */
    var browserRecords: seq<Record>
    /** `[channelName, eventName, method]` for each bus binding, in binding order. */
    var channelRecords: seq<Record>
    /** Set by teardown, when both record arrays are released. */
    var tornDown: bool
    /** Set once `_bind` has subscribed the teardown to the page switch. */
    ghost var subscribed: bool

    /** After teardown, both record arrays, `destroy` and `el` are gone. */
    ghost predicate Valid()
      reads this
    {
      tornDown ==> browserRecords == [] && channelRecords == [] && destroy.None? && el == Undefined
    }

    /** `new child(...)` up to the call of `_init` (lines 124-126): the new
        object, whose prototype is `proto`, becomes the widget being built. */
    constructor (proto: Proto)
      ensures this.proto == proto && Valid() && !tornDown && !subscribed
      ensures el == InitialEl(proto) && destroy == HookOf(proto, "destroy")
      ensures browserRecords == [] && channelRecords == []
    {
      this.proto := proto;
      el := InitialEl(proto);
      destroy := HookOf(proto, "destroy");
      browserRecords := [];
      channelRecords := [];
      tornDown := false;
      subscribed := false;
    }

    /** `_bindBrowserEvent` (lines 61-69): register on `self.el || 'body'`,
        delegated when the selector is non-empty, then record the triple. */
    method BindBrowserEvent(hub: EventHub, eventName: string, selector: string, handler: FnId)
      modifies this`browserRecords, hub
      ensures browserRecords == old(browserRecords) + [Record(eventName, selector, handler)]
      ensures hub.log == old(hub.log) + [DomOn(DomRegFor(TargetOf(el), Record(eventName, selector, handler)))]
    {
      var target := TargetOf(el);
      if selector != "" {
        hub.On(DomReg(target, eventName, Within(selector), handler));
      } else {
        hub.On(DomReg(target, eventName, OnElement, handler));
      }
      browserRecords := browserRecords + [Record(eventName, selector, handler)];
    }

    /** `_bindCustomerEvent` (lines 76-79): subscribe, then record the triple. */
    method BindChannelEvent(hub: EventHub, channelName: string, eventName: string, handler: FnId)
      modifies this`channelRecords, hub
      ensures channelRecords == old(channelRecords) + [Record(channelName, eventName, handler)]
      ensures hub.log == old(hub.log) + [BusOn(BusRegFor(Record(channelName, eventName, handler)))]
    {
      hub.Subscribe(BusReg(channelName, eventName, Proxy(handler)));
      channelRecords := channelRecords + [Record(channelName, eventName, handler)];
    }

    /** `_unbindBrowserEvent` (lines 83-90): the same triple, taken off
        `self.el || 'body'` as it is at the time of the call. */
    method UnbindBrowserEvent(hub: EventHub, eventName: string, selector: string, handler: FnId)
      modifies hub
      ensures hub.log == old(hub.log) + [DomOff(DomRegFor(TargetOf(el), Record(eventName, selector, handler)))]
    {
      var target := TargetOf(el);
      if selector != "" {
        hub.Off(DomReg(target, eventName, Within(selector), handler));
      } else {
        hub.Off(DomReg(target, eventName, OnElement, handler));
      }
    }

    /** `_unbindChannelEvent` (lines 94-96). */
    method UnbindChannelEvent(hub: EventHub, channelName: string, eventName: string, handler: FnId)
      modifies hub
      ensures hub.log == old(hub.log) + [BusOff(BusRegFor(Record(channelName, eventName, handler)))]
    {
      hub.Unsubscribe(BusReg(channelName, eventName, Proxy(handler)));
    }

    /** One run of the `$.each` callback of the `events` loop (lines 27-36):
        an entry whose handler does not resolve is skipped; otherwise its key
        is split and the DOM binding made, or the failed match throws. */
    method BindEventEntry(hub: EventHub, e: Entry, ghost log0: seq<Call>) returns (failure: Option<string>)
      requires hub.log == log0 + DomBindCalls(TargetOf(el), browserRecords)
      modifies this`browserRecords, hub
      ensures Plan(browserRecords, failure) == PlanStep(proto, Plan(old(browserRecords), None), e, OnInstance)
      ensures hub.log == log0 + DomBindCalls(TargetOf(el), browserRecords)
    {
      var (key, value) := e;
      var handler := Resolve(proto, value, OnInstance);
      if handler.None? {
        return None;
      }
      var parts := Split(key);
      if parts.None? {
        // `match[1]` on null: the TypeError leaves `_bind` here
        return Some(key);
      }
      ghost var r := Record(parts.value.0, parts.value.1, handler.value);
      DomBindCallsNext(TargetOf(el), browserRecords, r);
      AppendAssoc(log0, DomBindCalls(TargetOf(el), browserRecords), [DomOn(DomRegFor(TargetOf(el), r))]);
      BindBrowserEvent(hub, parts.value.0, parts.value.1, handler.value);
      failure := None;
    }

    /** The `events` loop of `_bind` (lines 26-37): one DOM binding per
        entry whose handler resolves, in iteration order, until a key that
        does not match throws. */
    method BindEvents(hub: EventHub) returns (failure: Option<string>)
      requires browserRecords == []
      modifies this`browserRecords, hub
      ensures browserRecords == EventsPlan(proto).records && failure == EventsPlan(proto).malformed
      ensures hub.log == old(hub.log) + DomBindCalls(TargetOf(el), browserRecords)
    {
      var events := Entries(Lookup(proto, "events"));
      assert EventsPlan(proto) == PlanTable(proto, events, OnInstance);
      ghost var log0, target := hub.log, TargetOf(el);
      var i := 0;
      while i < |events|
        invariant 0 <= i <= |events|
        invariant PlanTable(proto, events[..i], OnInstance) == Plan(browserRecords, None)
        invariant hub.log == log0 + DomBindCalls(target, browserRecords)
      {
        PlanTableNext(proto, events, i, OnInstance);
        failure := BindEventEntry(hub, events[i], log0);
        if failure.Some? {
          PlanStopsAt(proto, events, i, OnInstance);
          return;
        }
        i := i + 1;
      }
      assert events[..i] == events;
      failure := None;
    }

    /** One run of the `$.each` callback of the `channels` loop (lines 41-50),
        with a handler name read on the instance. */
    method BindChannelEntry(hub: EventHub, e: Entry, ghost log0: seq<Call>) returns (failure: Option<string>)
      requires hub.log == log0 + BusBindCalls(channelRecords)
      modifies this`channelRecords, hub
      ensures Plan(channelRecords, failure) == PlanStep(proto, Plan(old(channelRecords), None), e, OnInstance)
      ensures hub.log == log0 + BusBindCalls(channelRecords)
    {
      var (key, value) := e;
      var handler := Resolve(proto, value, OnInstance);
      if handler.None? {
        return None;
      }
      var parts := Split(key);
      if parts.None? {
        return Some(key);
      }
      ghost var r := Record(parts.value.0, parts.value.1, handler.value);
      BusBindCallsNext(channelRecords, r);
      AppendAssoc(log0, BusBindCalls(channelRecords), [BusOn(BusRegFor(r))]);
      BindChannelEvent(hub, parts.value.0, parts.value.1, handler.value);
      failure := None;
    }

    /** The `channels` loop of `_bind` (lines 40-51). */
    method BindChannels(hub: EventHub) returns (failure: Option<string>)
      requires channelRecords == []
      modifies this`channelRecords, hub
      ensures channelRecords == ChannelsPlan(proto).records && failure == ChannelsPlan(proto).malformed
      ensures hub.log == old(hub.log) + BusBindCalls(channelRecords)
    {
      var channels := Entries(Lookup(proto, "channels"));
      assert ChannelsPlan(proto) == PlanTable(proto, channels, OnInstance);
      ghost var log0 := hub.log;
      var j := 0;
      while j < |channels|
        invariant 0 <= j <= |channels|
        invariant PlanTable(proto, channels[..j], OnInstance) == Plan(channelRecords, None)
        invariant hub.log == log0 + BusBindCalls(channelRecords)
      {
        PlanTableNext(proto, channels, j, OnInstance);
        failure := BindChannelEntry(hub, channels[j], log0);
        if failure.Some? {
          PlanStopsAt(proto, channels, j, OnInstance);
          return;
        }
        j := j + 1;
      }
      assert channels[..j] == channels;
      failure := None;
    }

    /** `_bind` (lines 20-54): the `events` loop, the `channels` loop, then
        the teardown subscription. It returns the key whose failed match threw
        out of `_bind`, if one did. */
    method Bind(hub: EventHub) returns (failure: Option<string>)
      requires !tornDown && browserRecords == [] && channelRecords == []
      modifies this`browserRecords, this`channelRecords, this`subscribed, hub
      ensures subscribed <==> old(subscribed) || failure.None?
      ensures var e := BindEffect(proto, TargetOf(el), this);
              && browserRecords == e.browser && channelRecords == e.channel
              && failure == e.failure
              && hub.log == old(hub.log) + e.calls
    {
      ghost var log0 := hub.log;
      BindEffectStages(proto, TargetOf(el), this);
      failure := BindEvents(hub);
      if failure.Some? {
        return;
      }
      ghost var doms := hub.log[|log0|..];
      failure := BindChannels(hub);
      ghost var buses := BusBindCalls(channelRecords);
      if failure.Some? {
        AppendStages(log0, doms, buses, []);
        return;
      }
      hub.Subscribe(TeardownSubscription(this));
      subscribed := true;
      AppendStages(log0, doms, buses, [BusOn(TeardownSubscription(this))]);
    }

    /** `_init` (lines 14-19): `init(pageName)` when it is a function, then
        `_bind`. A throwing `init` is not modelled. */
    method Init(hub: EventHub, pageName: string) returns (failure: Option<string>)
      requires !tornDown && browserRecords == [] && channelRecords == []
      modifies this`browserRecords, this`channelRecords, this`subscribed, hub
      ensures subscribed <==> old(subscribed) || failure.None?
      ensures var e := BindEffect(proto, TargetOf(el), this);
              && browserRecords == e.browser && channelRecords == e.channel
              && failure == e.failure
              && hub.log == old(hub.log) + InitCalls(proto, pageName) + e.calls
    {
      var init := HookOf(proto, "init");
      if init.Some? {
        hub.RunHook(init.value, Some(pageName));
      }
      failure := Bind(hub);
    }

    /** The DOM loop of `_destroy` (lines 102-104): `off` for every record,
        in recorded order. */
    method UnbindEvents(hub: EventHub)
      modifies hub
      ensures hub.log == old(hub.log) + DomUnbindCalls(TargetOf(el), browserRecords)
    {
      var i := 0;
      while i < |browserRecords|
        invariant 0 <= i <= |browserRecords|
        invariant hub.log == old(hub.log) + DomUnbindCalls(TargetOf(el), browserRecords[..i])
      {
        var r := browserRecords[i];
        UnbindBrowserEvent(hub, r.first, r.second, r.handler);
        assert browserRecords[..i + 1][..i] == browserRecords[..i];
        i := i + 1;
      }
      assert browserRecords[..i] == browserRecords;
    }

    /** The channel loop of `_destroy` (lines 105-107). */
    method UnbindChannels(hub: EventHub)
      modifies hub
      ensures hub.log == old(hub.log) + BusUnbindCalls(channelRecords)
    {
      var j := 0;
      while j < |channelRecords|
        invariant 0 <= j <= |channelRecords|
        invariant hub.log == old(hub.log) + BusUnbindCalls(channelRecords[..j])
      {
        var r := channelRecords[j];
        UnbindChannelEvent(hub, r.first, r.second, r.handler);
        assert channelRecords[..j + 1][..j] == channelRecords[..j];
        j := j + 1;
      }
      assert channelRecords[..j] == channelRecords;
    }

    /** Lines 100-107 of `_destroy`: the component's `destroy`, then `off`
        for every DOM record and for every channel record, in recorded order,
        each with the record's own triple. */
    method Detach(hub: EventHub)
      requires destroy.Some?
      modifies hub
      ensures hub.log == old(hub.log) + TeardownCalls(destroy.value, TargetOf(el), browserRecords, channelRecords)
    {
      ghost var log0 := hub.log;
      hub.RunHook(destroy.value, None);
      UnbindEvents(hub);
      UnbindChannels(hub);
      AppendStages(log0, [Invoked(destroy.value, None)], DomUnbindCalls(TargetOf(el), browserRecords),
                   BusUnbindCalls(channelRecords));
    }

    /** `_destroy` (lines 100-112), run by the `'switchend'` broadcast.
        `self.destroy()` comes first and throws when `destroy` is not a
        function, as on a second run, leaving everything as it was.
        Otherwise the records are unregistered (`Detach`), both arrays are
        released, and `destroy` and `el` are cleared. What the calls do to
        the registries is `TeardownClears`. */
    method Teardown(hub: EventHub) returns (threw: bool)
      requires Valid()
      modifies this, hub
      ensures Valid()
      ensures threw <==> old(destroy).None?
      ensures subscribed == old(subscribed)
      ensures threw ==> unchanged(this) && hub.log == old(hub.log)
      ensures !threw ==>
                hub.log == old(hub.log) + TeardownCalls(old(destroy).value, TargetOf(old(el)),
                                                       old(browserRecords), old(channelRecords))
      ensures !threw ==>
                tornDown && browserRecords == [] && channelRecords == [] && destroy.None? && el == Undefined
    {
      if destroy.None? {
        return true;
      }
      threw := false;
      Detach(hub);
      browserRecords := [];
      channelRecords := [];
      destroy := None;
      el := Undefined;
      tornDown := true;
    }

    /** `_destroy` with `destroy` guarded as `_init` guards `init` (line 15):
        the component's `destroy` when it is a function, and in either case every record unregistered
        (`Binding.ReleaseClears`), both arrays released, and `destroy` and
        `el` cleared. A second run makes no calls. */
    method Release(hub: EventHub)
      requires Valid()
      modifies this, hub
      ensures Valid() && tornDown && subscribed == old(subscribed)
      ensures hub.log == old(hub.log) + ReleaseCalls(old(destroy), TargetOf(old(el)),
                                                    old(browserRecords), old(channelRecords))
      ensures browserRecords == [] && channelRecords == [] && destroy.None? && el == Undefined
    {
      if destroy.Some? {
        Detach(hub);
      } else {
        ghost var log0 := hub.log;
        UnbindEvents(hub);
        UnbindChannels(hub);
        AppendAssoc(log0, DomUnbindCalls(TargetOf(el), browserRecords), BusUnbindCalls(channelRecords));
      }
      browserRecords := [];
      channelRecords := [];
      destroy := None;
      el := Undefined;
      tornDown := true;
    }
  }

  /** A component type without `destroy`: after an uninterrupted binding,
      each recorded handler is registered. Teardown as written throws at
      `self.destroy()` and makes no call (`Widget.Teardown`), so the handler
      stays registered; the corrected release takes it away. */
  lemma MissingDestroyLeaks(log: seq<Call>, target: Target, browser: seq<Record>, channel: seq<Record>,
                            owner: object, k: nat)
    requires k < |browser|
    ensures var bound := log + (DomBindCalls(target, browser) + BusBindCalls(channel) + Finish(None, owner));
            var x := DomRegs(target, browser)[k];
            && DomCount(bound, x) > 0
            && DomCount(bound + ReleaseCalls(None, target, browser, channel), x) == 0
  {
    var bound := log + (DomBindCalls(target, browser) + BusBindCalls(channel) + Finish(None, owner));
    var x := DomRegs(target, browser)[k];
    BindAdds(log, target, browser, channel, owner, x);
    assert x in DomRegs(target, browser);
    UnregisteredOwn(DomRegs(target, browser), x);
    ReleaseClears(bound, None, target, browser, channel, x);
  }

  /** `new child(pageName)` for the component type whose prototype is
      `proto` (lines 124-127, 114-116): a new instance, then `_init`.
      `createWidget` (lines 135-137) does the same and drops the instance. */
  method Construct(proto: Proto, pageName: string, hub: EventHub) returns (w: Widget, failure: Option<string>)
    modifies hub
    ensures fresh(w) && w.proto == proto && w.Valid() && !w.tornDown
    ensures w.subscribed <==> failure.None?
    ensures w.el == InitialEl(proto) && w.destroy == HookOf(proto, "destroy")
    ensures var e := BindEffect(proto, TargetOf(InitialEl(proto)), w);
            && w.browserRecords == e.browser && w.channelRecords == e.channel
            && failure == e.failure
            && hub.log == old(hub.log) + InitCalls(proto, pageName) + e.calls
  {
    w := new Widget(proto);
    failure := w.Init(hub, pageName);
  }

  /** The `'switchend'` broadcast reaching two widgets whose binding
      subscribed them: each releases its own records against its own
      element, calling its own `destroy` if it has one, so afterwards neither
      widget's recorded bindings are registered. */
  method SwitchEnd(hub: EventHub, a: Widget, b: Widget)
    requires a != b && a.Valid() && b.Valid() && a.subscribed && b.subscribed
    modifies a, b, hub
    ensures a.tornDown && b.tornDown
    ensures hub.log == old(hub.log)
                       + ReleaseCalls(old(a.destroy), TargetOf(old(a.el)), old(a.browserRecords), old(a.channelRecords))
                       + ReleaseCalls(old(b.destroy), TargetOf(old(b.el)), old(b.browserRecords), old(b.channelRecords))
    ensures forall x :: (x in DomRegs(TargetOf(old(a.el)), old(a.browserRecords)) ||
                         x in DomRegs(TargetOf(old(b.el)), old(b.browserRecords))) ==> DomCount(hub.log, x) == 0
    ensures forall x :: (x in BusRegs(old(a.channelRecords)) || x in BusRegs(old(b.channelRecords))) ==>
                        ActiveBus(hub.log)[x] == 0
  {
    ghost var hookA, targetA, browserA, channelA := a.destroy, TargetOf(a.el), a.browserRecords, a.channelRecords;
    ghost var hookB, targetB, browserB, channelB := b.destroy, TargetOf(b.el), b.browserRecords, b.channelRecords;
    ghost var log0 := hub.log;
    a.Release(hub);
    ghost var log1 := hub.log;
    b.Release(hub);
    forall x | x in DomRegs(targetA, browserA) || x in DomRegs(targetB, browserB)
      ensures DomCount(hub.log, x) == 0
    {
      ReleaseClears(log0, hookA, targetA, browserA, channelA, x);
      ReleaseClears(log1, hookB, targetB, browserB, channelB, x);
      if x in DomRegs(targetA, browserA) {
        UnregisteredOwn(DomRegs(targetA, browserA), x);
      }
      if x in DomRegs(targetB, browserB) {
        UnregisteredOwn(DomRegs(targetB, browserB), x);
      }
    }
    ReleaseClears(log0, hookA, targetA, browserA, channelA, DomReg(targetA, "", OnElement, 0));
    ReleaseClears(log1, hookB, targetB, browserB, channelB, DomReg(targetB, "", OnElement, 0));
    forall x | x in BusRegs(channelA) || x in BusRegs(channelB)
      ensures ActiveBus(hub.log)[x] == 0
    {
      WithoutBoth(ActiveBus(log0), BusRegs(channelA), BusRegs(channelB), x);
    }
  }
}

=== FILE: prototypes.dfy ===
/** `Widget.extend` (widget.js lines 122-139): a component type is a
    prototype chain. The prototypes are modelled as values, so extending a
    type can only build a new chain on top of the parent's. */
module Prototypes {
  import opened Values

  /** `Base` is `Widget.prototype`, to which the source adds no members;
      `Derived` is a `child.prototype` with its own members over its parent. */
  datatype Proto = Base | Derived(parent: Proto, own: map<string, Value>)

  /** Property read `p[name]` on an object whose prototype is `p`. */
  function Lookup(p: Proto, name: string): Option<Value>
  {
    match p
    case Base => None
    case Derived(parent, own) => if name in own then Some(own[name]) else Lookup(parent, name)
  }

  /** The own members of each prototype on the chain, nearest first. */
  function Layers(p: Proto): (ls: seq<map<string, Value>>)
    ensures |ls| == 0 <==> p.Base?
  {
    match p
    case Base => []
    case Derived(parent, own) => [own] + Layers(parent)
  }

  /** A read finds the member of the nearest prototype that defines the name. */
  lemma {:induction false} LookupNearest(p: Proto, name: string, k: nat)
    requires k < |Layers(p)| && name in Layers(p)[k]
    requires forall j :: 0 <= j < k ==> name !in Layers(p)[j]
    ensures Lookup(p, name) == Some(Layers(p)[k][name])
    decreases p
  {
    match p
    case Base =>
    case Derived(parent, own) =>
      if k > 0 {
        assert name !in Layers(p)[0];
        forall j | 0 <= j < k - 1 ensures name !in Layers(parent)[j] {
          assert Layers(parent)[j] == Layers(p)[j + 1];
        }
        LookupNearest(parent, name, k - 1);
      }
  }

  /** A read finds nothing when no prototype on the chain defines the name. */
  lemma {:induction false} LookupAbsent(p: Proto, name: string)
    requires forall k :: 0 <= k < |Layers(p)| ==> name !in Layers(p)[k]
    ensures Lookup(p, name) == None
    decreases p
  {
    match p
    case Base =>
    case Derived(parent, own) =>
      assert name !in Layers(p)[0];
      forall j | 0 <= j < |Layers(parent)| ensures name !in Layers(parent)[j] {
        assert Layers(parent)[j] == Layers(p)[j + 1];
      }
      LookupAbsent(parent, name);
  }

  /** `Widget.extend(obj)` called on the type whose prototype is `parent`:
      a fresh prototype delegating to `parent`, onto which `$.extend` copies
      every member of `obj` whose value is not undefined. */
  function Extend(parent: Proto, obj: map<string, Value>): (child: Proto)
    ensures child.Derived? && child.parent == parent
    ensures forall name :: Lookup(child, name) ==
              if name in obj && obj[name] != Undefined then Some(obj[name]) else Lookup(parent, name)
  {
    Derived(parent, map name | name in obj && obj[name] != Undefined :: obj[name])
  }
}

=== FILE: registry.dfy ===
/** The two outside event sources widget.js registers with: jQuery's DOM
    events (`$(el).on` / `$(el).off`) and the `listener` pub/sub bus
    (`listener.on` / `listener.off`). Neither is modelled as a dispatcher;
    what matters is the sequence of calls a widget makes on them and the
    registrations that sequence leaves active. */
module Registry {
  import opened Values

  /** Where a DOM handler listens: on the element itself (`on(event, fn)`),
      or delegated to descendants matching a selector (`on(event, sel, fn)`). */
  datatype Scope = OnElement | Within(selector: string)

  /** What `$(...)` is applied to: a selector string, or an object (a DOM
      element, a jQuery object) that is used as it is. */
  datatype Target = Selector(s: string) | Element(v: Value)

  datatype DomReg = DomReg(target: Target, event: string, scope: Scope, handler: FnId)

  /** A bus listener: a component method bound with `$.proxy`, or the
      teardown routine bound to one widget instance. */
  datatype Listener = Proxy(fn: FnId) | TeardownOf(owner: object)

  datatype BusReg = BusReg(channel: string, event: string, listener: Listener)

  /** One call on the outside world. `Invoked` is a call into the component's
      own `init` or `destroy`, recorded so that its place in the order shows. */
  datatype Call =
    | DomOn(dom: DomReg)
    | DomOff(dom: DomReg)
    | BusOn(bus: BusReg)
    | BusOff(bus: BusReg)
    | Invoked(hook: FnId, arg: Option<string>)

  /** Whether `off` with the fields of `off` takes the registration `x` away.
      jQuery's `off` matches the element, the event and the handler; given a
      selector it takes only the handlers delegated to that selector, given
      none (`off(event, fn)`) it takes the handler whatever its selector. */
  predicate Unregisters(off: DomReg, x: DomReg)
    ensures x == off ==> Unregisters(off, x)
    ensures Unregisters(off, x) && off.scope.Within? ==> x == off
    ensures Unregisters(off, x) ==> x.target == off.target && x.event == off.event && x.handler == off.handler
  {
    && x.target == off.target && x.event == off.event && x.handler == off.handler
    && (off.scope.OnElement? || x.scope == off.scope)
  }

  /** Some `off` of `offs` takes `x` away. */
  predicate Unregistered(offs: seq<DomReg>, x: DomReg)
  {
    exists k :: 0 <= k < |offs| && Unregisters(offs[k], x)
  }

  /** `off` with a registration's own fields takes that registration away. */
  lemma UnregisteredOwn(offs: seq<DomReg>, x: DomReg)
    requires x in offs
    ensures Unregistered(offs, x)
  {
    var k :| 0 <= k < |offs| && offs[k] == x;
    assert Unregisters(offs[k], x);
  }

  /** One more `off` takes `x` away when it or an earlier one does. */
  lemma UnregisteredNext(offs: seq<DomReg>, off: DomReg, x: DomReg)
    ensures Unregistered(offs + [off], x) <==> Unregistered(offs, x) || Unregisters(off, x)
  {
    var all := offs + [off];
    if Unregistered(offs, x) {
      var k :| 0 <= k < |offs| && Unregisters(offs[k], x);
      assert all[k] == offs[k];
    }
    if Unregisters(off, x) {
      assert all[|offs|] == off;
    }
    if Unregistered(all, x) {
      var k :| 0 <= k < |all| && Unregisters(all[k], x);
      if k < |offs| {
        assert all[k] == offs[k];
      }
    }
  }

  /** How many times the DOM registration `x` is active after the calls in
      `log`: each `on` with its fields adds one, and an `off` that matches it
      takes every one away. */
  function DomCount(log: seq<Call>, x: DomReg): (n: nat)
    ensures n <= |log|
    ensures n > 0 ==> DomOn(x) in log
    decreases |log|
  {
    if log == [] then 0
    else
      var prev := log[..|log| - 1];
      var n := DomCount(prev, x);
      assert n > 0 ==> DomOn(x) in log by {
        if n > 0 {
          var k :| 0 <= k < |prev| && prev[k] == DomOn(x);
          assert log[k] == DomOn(x);
        }
      }
      match log[|log| - 1]
      case DomOn(r) => if r == x then n + 1 else n
      case DomOff(r) => if Unregisters(r, x) then 0 else n
      case _ => n
  }

  /** Bus registrations active after the calls in `log`; `off` likewise
      removes every identical subscription. */
  function ActiveBus(log: seq<Call>): (m: multiset<BusReg>)
    ensures |m| <= |log|
    decreases |log|
  {
    if log == [] then multiset{}
    else
      var m := ActiveBus(log[..|log| - 1]);
      match log[|log| - 1]
      case BusOn(r) => m + multiset{r}
      case BusOff(r) => m[r := 0]
      case _ => m
  }

  /** Every active subscription was made by some `listener.on` of the log. */
  lemma {:induction false} ActiveBusSubscribed(log: seq<Call>, r: BusReg)
    requires r in ActiveBus(log)
    ensures BusOn(r) in log
    decreases |log|
  {
    var prev := log[..|log| - 1];
    if log[|log| - 1] != BusOn(r) {
      ActiveBusSubscribed(prev, r);
      var k :| 0 <= k < |prev| && prev[k] == BusOn(r);
      assert log[k] == BusOn(r);
    }
  }

  /** `m` with every occurrence of every element of `xs` taken out. */
  function Without<T>(m: multiset<T>, xs: seq<T>): multiset<T>
    decreases |xs|
  {
    if xs == [] then m else Without(m, xs[..|xs| - 1])[xs[|xs| - 1] := 0]
  }

  /** An element of `xs` is gone; any other keeps its count. */
  lemma {:induction false} WithoutAt<T>(m: multiset<T>, xs: seq<T>, x: T)
    ensures Without(m, xs)[x] == if x in xs then 0 else m[x]
    decreases |xs|
  {
    if xs != [] {
      var n := |xs| - 1;
      WithoutAt(m, xs[..n], x);
      assert xs == xs[..n] + [xs[n]];
      assert x in xs <==> x in xs[..n] || x == xs[n];
    }
  }

  /** Taking out `xs` and then `ys` leaves no element of either. */
  lemma WithoutBoth<T>(m: multiset<T>, xs: seq<T>, ys: seq<T>, x: T)
    requires x in xs || x in ys
    ensures Without(Without(m, xs), ys)[x] == 0
  {
    WithoutAt(m, xs, x);
    WithoutAt(Without(m, xs), ys, x);
  }

  predicate TouchesDom(c: Call)
  {
    c.DomOn? || c.DomOff?
  }

  predicate TouchesBus(c: Call)
  {
    c.BusOn? || c.BusOff?
  }

  /** What one more call does to the count of a DOM registration. */
  lemma DomCountAfter(log: seq<Call>, c: Call, x: DomReg)
    ensures DomCount(log + [c], x) ==
      if c.DomOn? && c.dom == x then DomCount(log, x) + 1
      else if c.DomOff? && Unregisters(c.dom, x) then 0
      else DomCount(log, x)
  {
    assert (log + [c])[..|log|] == log;
  }

  /** What one more call does to the bus. */
  lemma ActiveAfter(log: seq<Call>, c: Call)
    ensures ActiveBus(log + [c]) ==
      if c.BusOn? then ActiveBus(log) + multiset{c.bus}
      else if c.BusOff? then ActiveBus(log)[c.bus := 0]
      else ActiveBus(log)
  {
    assert (log + [c])[..|log|] == log;
  }

  /** Calls that do not address the DOM leave its registrations as they were. */
  lemma {:induction false} DomCountSkips(log: seq<Call>, cs: seq<Call>, x: DomReg)
    requires forall k :: 0 <= k < |cs| ==> !TouchesDom(cs[k])
    ensures DomCount(log + cs, x) == DomCount(log, x)
    decreases |cs|
  {
    if cs != [] {
      var n := |cs| - 1;
      assert (log + cs)[..|log + cs| - 1] == log + cs[..n];
      DomCountSkips(log, cs[..n], x);
    } else {
      assert log + cs == log;
    }
  }

  /** Calls that do not address the bus leave its subscriptions as they were. */
  lemma {:induction false} ActiveBusSkips(log: seq<Call>, cs: seq<Call>)
    requires forall k :: 0 <= k < |cs| ==> !TouchesBus(cs[k])
    ensures ActiveBus(log + cs) == ActiveBus(log)
    decreases |cs|
  {
    if cs != [] {
      var n := |cs| - 1;
      assert (log + cs)[..|log + cs| - 1] == log + cs[..n];
      ActiveBusSkips(log, cs[..n]);
    } else {
      assert log + cs == log;
    }
  }

  /** The shared event sources, as one object every widget calls into. */
  class EventHub {
    /** Every call made so far, oldest first. */
    var log: seq<Call>

    constructor ()
      ensures log == []
    {
      log := [];
    }

    /** `$(target).on(...)` */
    method On(r: DomReg)
      modifies this
      ensures log == old(log) + [DomOn(r)]
      ensures forall x :: DomCount(log, x) == old(DomCount(log, x)) + (if x == r then 1 else 0)
      ensures ActiveBus(log) == old(ActiveBus(log))
    {
      Append(DomOn(r));
    }

    /** `$(target).off(...)` */
    method Off(r: DomReg)
      modifies this
      ensures log == old(log) + [DomOff(r)]
      ensures forall x :: DomCount(log, x) == if Unregisters(r, x) then 0 else old(DomCount(log, x))
      ensures ActiveBus(log) == old(ActiveBus(log))
    {
      Append(DomOff(r));
    }

    /** `listener.on(channel, event, fn)` */
    method Subscribe(r: BusReg)
      modifies this
      ensures log == old(log) + [BusOn(r)]
      ensures ActiveBus(log) == old(ActiveBus(log)) + multiset{r}
      ensures forall x :: DomCount(log, x) == old(DomCount(log, x))
    {
      Append(BusOn(r));
    }

    /** `listener.off(channel, event, fn)` */
    method Unsubscribe(r: BusReg)
      modifies this
      ensures log == old(log) + [BusOff(r)]
      ensures ActiveBus(log) == old(ActiveBus(log))[r := 0]
      ensures forall x :: DomCount(log, x) == old(DomCount(log, x))
    {
      Append(BusOff(r));
    }

    /** A call into the component's own `init` or `destroy`. Whatever that
        code does is not part of the model. */
    method RunHook(hook: FnId, arg: Option<string>)
      modifies this
      ensures log == old(log) + [Invoked(hook, arg)]
      ensures forall x :: DomCount(log, x) == old(DomCount(log, x))
      ensures ActiveBus(log) == old(ActiveBus(log))
    {
      Append(Invoked(hook, arg));
    }

    /** Appends one call to the log. */
    method Append(c: Call)
      modifies this
      ensures log == old(log) + [c]
      ensures forall x :: DomCount(log, x) ==
                if c.DomOn? && c.dom == x then old(DomCount(log, x)) + 1
                else if c.DomOff? && Unregisters(c.dom, x) then 0
                else old(DomCount(log, x))
      ensures ActiveBus(log) ==
                if c.BusOn? then old(ActiveBus(log)) + multiset{c.bus}
                else if c.BusOff? then old(ActiveBus(log))[c.bus := 0]
                else old(ActiveBus(log))
    {
      ghost var log0 := log;
      log := log + [c];
      forall x
        ensures DomCount(log, x) ==
                  if c.DomOn? && c.dom == x then DomCount(log0, x) + 1
                  else if c.DomOff? && Unregisters(c.dom, x) then 0
                  else DomCount(log0, x)
      {
        DomCountAfter(log0, c, x);
      }
      ActiveAfter(log0, c);
    }
  }
}

=== FILE: values.dfy ===
/** JavaScript values as far as the widget base class inspects them. */
module Values {

  datatype Option<T> = None | Some(value: T)

  /** Identity of a JavaScript function. jQuery gives a `$.proxy` wrapper the
      identity of the function it wraps, so one identity serves at `on` and `off`. */
  type FnId = nat

  /** A property value of a widget prototype or of a binding table. */
  datatype Value =
    | Undefined
    | Null                                  // null, and the other falsy non-strings
    | Text(s: string)                       // a string: a method name, an `el` selector
    | Function(id: FnId)
    | Table(entries: seq<(string, Value)>)  // a plain object, keys in iteration order

  /** Appending in two stages is appending once. */
  lemma AppendAssoc<T>(s: seq<T>, a: seq<T>, b: seq<T>)
    ensures s + (a + b) == s + a + b
  {
  }

  /** Appending in three stages is appending once. */
  lemma AppendStages<T>(s: seq<T>, a: seq<T>, b: seq<T>, c: seq<T>)
    ensures s + a + b + c == s + (a + b + c)
  {
  }

  /** A sequence is its prefix followed by the rest. */
  lemma PrefixRest<T>(s: seq<T>, i: nat)
    requires i <= |s|
    ensures s[..i] + s[i..] == s
  {
  }
}
